=== FILE: README.md ===
# Streaming chat relay, tool executor, conversation store and client consumer

This project models, in Dafny, the stateful core of a small Next.js chat application in which a
language model can call one tool (`get_weather`). The model has five parts:

- **The relay behind `POST /api/chat`** (`Framer`, `Accumulator`, `Relay`, `RelayLaws`). It calls
  the provider with the browser's history (stream A) and splits the body into lines. It forwards
  content deltas and assembles tool calls from index-addressed fragments. On stream A's `[DONE]`
  it runs one tool round: it sends the calls and their results downstream, calls the provider
  again with the extended history (stream B), forwards stream B's content, and sends `[DONE]`.
- **The tool executor** (`Tools`): `executeTool` validates arguments and dispatches on the tool
  name. `getWeather` answers from a fixed table of three cities.
- **The conversation store** (`Store`): the conversation list plus the current selection, with
  each store action as a pure state transition.
- **The client consumer `handleSend`** (`ChatView`). It records the user's message and an empty
  assistant message, posts the history, then folds the relay's frames into the turn's state and
  into the store.
- **Relative time labels** (`Format`).

`Base` holds `Option` and the JavaScript string operations the code relies on: `trim` over
JavaScript whitespace, `startsWith` and `slice`. `Types` mirrors `lib/types.ts`. JavaScript arrays
that can have holes (the tool-call slot array, and the results computed from it) are
`seq<Option<…>>`, and a hole is `None`.

The I/O is lifted out as parameters:

- `upstream(n, request)` answers the relay's provider fetch number `n`: 0 for the first request,
  then one number per tool round, so each follow-up fetch gets its own answer. The answer is a
  rejected fetch, a non-OK response with its text, a missing body, or the decoded body chunks and
  how the read ended.
- `parse` stands for `JSON.parse(data).choices?.[0]?.delta`, where a failed parse is `None`.
- `execute` stands for `executeTool` together with the text it resolves to.
- `decode` stands for the browser's `JSON.parse` of a frame.
- The store and `handleSend` draw message ids and clock readings from parameters (`Stamp`,
  `stamps`, `now`). `formatTime` receives `now` and the local calendar (`localDate`).

Behaviours of the code that are easy to misread; the model follows the code:

- Identical tool calls are not deduplicated: every accumulated call is executed.
- A follow-up response that is not OK or has no body is skipped silently, and `[DONE]` is still
  sent.
- A follow-up fetch that is rejected, or whose read fails, reaches the outer `catch`. It emits one
  error frame and closes the stream without `[DONE]`.
- The slot array is never cleared after `[DONE]`, so a second `[DONE]` in stream A runs the whole
  tool round again for the same calls, with a new follow-up fetch
  (`RelayLaws.RepeatedDoneRepeatsRound`).

## Model

| member | source | states |
|---|---|---|
| Base.Trim | app/api/chat/route.ts:86 | the result is the stretch of the input between a blank prefix and a blank suffix, and neither end of it is JavaScript whitespace |
| Base.TrimEmptyIffBlank | lib/tools.ts:84 | `args.trim()` is empty exactly when every character of `args` is JavaScript whitespace |
| Base.Prefix | lib/store.ts:97 | `slice(0, n)` has length `min(n, |s|)` and is a prefix of `s` |
| Framer.Split | app/api/chat/route.ts:81 | `split("\n")` gives at least one piece, no piece holds a newline, and joining the pieces with `\n` gives back the text |
| Framer.Feed | app/api/chat/route.ts:80-82 | after a chunk, the complete lines each followed by `\n`, then the new buffer, equal the old buffer followed by the chunk; neither the lines nor the buffer hold a newline |
| Framer.Frame | app/api/chat/route.ts:76-84 | across all chunks, the lines emitted, each followed by `\n`, then the final buffer, equal the initial buffer followed by every chunk |
| Framer.TerminatedUnique | app/api/chat/route.ts:81-82 | newline-terminated lines followed by a newline-free rest can be cut up in only one way |
| Framer.FrameDependsOnlyOnText | app/api/chat/route.ts:76-84 | the lines emitted for a stream are those emitted for its whole text delivered as one chunk |
| Framer.ChunkBoundariesDoNotMatter | app/api/chat/route.ts:76-84 | two chunkings of the same text yield the same lines |
| Framer.StreamLines | app/api/chat/route.ts:76-84 | the lines of a stream hold no newline, and each followed by `\n` they spell the stream's text up to a tail that holds no newline |
| Framer.UnterminatedTailDropped | app/api/chat/route.ts:76-86 | text after the last newline is never processed as a line |
| Framer.DataPayload | app/api/chat/route.ts:85-86 | a line yields a payload exactly when it starts with `data: `, and the payload is the rest of the line trimmed |
| Accumulator.Apply | app/api/chat/route.ts:197-216 | one fragment: the first one for an index opens a slot with its id, type "function" and its name and arguments pieces; a later one keeps the id and appends the pieces; other slots are untouched and any gap becomes holes |
| Accumulator.ApplyAll | app/api/chat/route.ts:196-216 | the slot array only grows; an open slot stays open with the id it opened with, and every fragment's index ends up open |
| Accumulator.ApplyAllAppend | app/api/chat/route.ts:196-216 | feeding two batches of fragments in turn is feeding their concatenation |
| Accumulator.AccumulateAssembles | app/api/chat/route.ts:196-216 | from an empty array, each slot is the first fragment's id, type "function", and the in-order concatenation of that index's name and arguments pieces; indices no fragment names are holes; the length is one more than the largest index |
| Accumulator.SplitFragmentsAgree | app/api/chat/route.ts:209-215 | two consecutive fragments for one index act like one fragment carrying both pieces, and the second id is ignored |
| Relay.InitialRequest | app/api/chat/route.ts:29-44 | the first request streams, offers the tools, and carries the browser's messages unchanged |
| Relay.ToolRound | app/api/chat/route.ts:98-110 | one result per call, same length and order, no deduplication: role "tool", the call's id, the executor's text; a hole stays a hole |
| Relay.FollowUpMessages | app/api/chat/route.ts:120-128 | the original messages, then one assistant message with empty content carrying the calls, then one message per result in order |
| Relay.FollowUpRequest | app/api/chat/route.ts:130-146 | the second request streams, carries the follow-up messages, and offers no tools |
| Relay.Forward | app/api/chat/route.ts:219-226 | a payload yields one content event, with exactly its text, when its content is non-empty, and none otherwise |
| Relay.StepB | app/api/chat/route.ts:163-181 | in stream B, non-data lines and `[DONE]` yield nothing, and a data line yields only its content |
| Relay.RelayB | app/api/chat/route.ts:148-184 | everything stream B yields is a non-empty content event |
| RelayLaws.RelayBIsContents | app/api/chat/route.ts:163-181 | stream B forwards exactly the content of its parsed payloads, in line order, as stream A does for lines without `[DONE]`; `[DONE]` and unparsed lines yield nothing |
| Relay.FollowUpTail | app/api/chat/route.ts:130-241 | after the round's frames: a follow-up that is not OK or has no body yields only `[DONE]`; a read to the end yields stream B's content then `[DONE]`; a fetch or read that throws ends with an error frame and closes the stream |
| Relay.OnDone | app/api/chat/route.ts:87-188 | without accumulated calls only `[DONE]`, and no fetch; otherwise `tool_calls`, then `tool_results`, then what the follow-up fetch (the next fetch number) yields; the slot array is kept |
| Relay.StepA | app/api/chat/route.ts:84-229 | a stream A line that is not a data line, or whose payload does not parse, yields nothing and leaves the slots unchanged; a parsed payload feeds its fragments to the slots and then forwards its content; `[DONE]` runs the round |
| Relay.RunA | app/api/chat/route.ts:76-232 | the fetch number never goes down and grows by at most one per line of stream A |
| Relay.StreamBody | app/api/chat/route.ts:46-66 | a failed first call yields exactly one error frame (`API Error: <text>`, or `No response body`) and no `[DONE]` |
| RelayLaws.BrokenBody | app/api/chat/route.ts:76-241 | when reading the first response breaks, the body is stream A's frames over the lines framed so far; unless a failed round already closed the stream, one error frame with the failure's text follows as the last frame, adding no `[DONE]` |
| RelayLaws.BrokenBeforeDone | app/api/chat/route.ts:76-241 | a first response that breaks before its `[DONE]` yields the content of the lines read so far, then the error frame, and never `[DONE]` |
| RelayLaws.RunWithoutDone | app/api/chat/route.ts:76-229 | before `[DONE]`, stream A forwards exactly the payloads' content texts in line order and leaves the slots holding all their tool-call fragments in order |
| RelayLaws.UnparsedLineInvisible | app/api/chat/route.ts:84-229 | removing a line that neither parses nor is `[DONE]` changes neither the events nor the slot array |
| RelayLaws.RepeatedDoneRepeatsRound | app/api/chat/route.ts:87-188 | because the slots survive `[DONE]`, a second marker sends `[DONE]` again when there are no calls, and otherwise runs the round again for the same calls with the next, independent follow-up fetch |
| RelayLaws.SingleDoneSession | app/api/chat/route.ts:76-234 | with one `[DONE]` in stream A, followed by lines without one (the usual trailing blank line), the frames are the content before the marker, the round's frames (fetch number 1), then the content after the marker unless the round closed the stream |
| RelayLaws.DoneBetween | app/api/chat/route.ts:76-229 | lines without `[DONE]`, the marker, then more such lines: the first lines' content, the round over their fragments, then the later lines' content unless the round closed the stream |
| RelayLaws.ContentOnlySession | app/api/chat/route.ts:87-188 | with no tool-call fragments before the marker, the frames are the content before it, `[DONE]`, then the content of any lines after it |
| RelayLaws.RunAppend | app/api/chat/route.ts:76-229 | reading two stretches of stream A one after the other is reading their concatenation, unless the first closed the stream |
| RelayLaws.AnsweredRound | app/api/chat/route.ts:89-187 | a round whose follow-up is read to the end sends `tool_calls`, `tool_results`, stream B's content and `[DONE]` |
| RelayLaws.ToolRoundSession | app/api/chat/route.ts:76-234 | with calls and an answering follow-up, the frames are stream A's content before the marker, `tool_calls`, `tool_results`, stream B's content, `[DONE]`, then stream A's content after the marker, in that order |
| RelayLaws.DoneOnce | app/api/chat/route.ts:76-234 | frames shaped like such a session hold exactly one `[DONE]` |
| RelayLaws.ToolRoundSessionDoneOnce | app/api/chat/route.ts:76-234 | the body of a session with calls and an answering follow-up holds exactly one `[DONE]` |
| Tools.SelectUnit | lib/tools.ts:36 | the unit is Fahrenheit exactly when `unit` is truthy and is not "celsius"; when `unit` is absent it is Celsius |
| Tools.GetWeather | lib/tools.ts:30-77 | the answer names the asked location and carries the selected unit's label; 北京, 上海 and 深圳 get their table rows (15 or 59, 晴朗, 45, 12; 20 or 68, 多云, 60, 8; 25 or 77, 阴天, 70, 5); any other city gets the default row (18 or 64, 未知, 50, 10) |
| Tools.ScalesAgree | lib/tools.ts:39-76 | for every location, the Fahrenheit temperature is the Celsius one converted and rounded down, and nothing but the temperature and its label depends on the unit |
| Tools.ExecuteTool | lib/tools.ts:80-113 | invalid non-blank JSON is reported before the name is looked at; an unknown name gives `Unknown tool: <name>`; for `get_weather`, blank arguments or a `location` that is missing, empty or not a string give the missing-location error, and arguments that parse to `null` give `Tool execution failed: …`; a weather answer comes exactly when `location` is a non-empty string, and it is `getWeather` of that location with the arguments' `unit` field |
| Tools.WeatherCall | lib/tools.ts:96-111 | for parsed arguments, `null` makes the read throw into the outer catch; a `location` that is missing, empty or not a string is turned away; otherwise the answer is `getWeather` of that location with the arguments' `unit` field |
| Tools.LookupAsWritten | lib/tools.ts:67-76 | the table lookup as written finds an inherited member exactly for `Object.prototype` member names |
| Tools.PrototypeKeyLookup | lib/tools.ts:67-76 | for "toString" the lookup as written finds the inherited function, while the corrected lookup gives the default row |
| Tools.LookupAgreesOffPrototype | lib/tools.ts:67-76 | on every other name the two lookups agree |
| Store.Find | lib/store.ts:68 | `find` falling back to `null`: a conversation exactly when the id is set and some conversation has it, and then the first such one |
| Store.Without | lib/store.ts:56-58 | `filter`: the survivors are conversations of the input without the id, and every conversation without the id survives |
| Store.IndexOf | lib/store.ts:68-74 | `find` by id: the first conversation with the id, or none when no conversation has it |
| Store.CreateConversation | lib/store.ts:35-52 | a new conversation titled 新对话 with no messages goes in front, the others keep their order, and it becomes current; the selection invariant holds; distinct ids stay distinct when the new id is fresh |
| Store.DeleteConversation | lib/store.ts:54-71 | every conversation with the id is removed and the rest keep their order; deleting the current one selects the first survivor's id, or none when there is no survivor or its id is empty; otherwise the selection is kept; the selection invariant holds and distinct ids stay distinct |
| Store.FindWithout | lib/store.ts:56-68 | removing one id does not change which conversation another id finds |
| Store.SetCurrentConversation | lib/store.ts:73-79 | the id is selected even when unknown, and the current conversation is the listed one with that id, or none |
| Store.Appended | lib/store.ts:84-98 | the message goes last; the title becomes the first 30 characters of the content exactly when the conversation was empty and the message is a non-empty user message |
| Store.AddMessage | lib/store.ts:81-113 | only the conversations with the id change, and each becomes `Appended`; ids and the current id are kept; the selection invariant and distinct ids are preserved |
| Store.Merge | lib/store.ts:126 | for every field of the message, the result's field is the update's value when the update sets it and the message's own value otherwise |
| Store.Patched | lib/store.ts:121-129 | message count and order are kept and only messages with the id are merged |
| Store.UpdateMessage | lib/store.ts:115-142 | only the conversations with the id change, and each becomes `Patched`; the selection invariant and distinct ids are preserved |
| Store.ClearConversations | lib/store.ts:144-150 | no conversations, no current id and no current conversation |
| ChatView.ToolMessages | components/chat-view.tsx:151-164 | one tool message per result in array order, copying content and `tool_call_id`, up to the first `null` entry, whose read throws |
| ChatView.AddAll | components/chat-view.tsx:154-163 | the messages go, in order, to the end of the conversation with the id, and nothing else changes |
| ChatView.Step | components/chat-view.tsx:118-167 | `[DONE]` only clears loading; an error frame sets the error and nothing else; content accretes; `tool_calls` replaces the calls; `tool_results` appends tool messages; an unparseable line changes nothing |
| ChatView.StepKeeps | components/chat-view.tsx:135-164 | each frame writes only to the current conversation, keeps message ids and roles, preserves the store invariants, and keeps the stored assistant text equal to the turn's text |
| ChatView.Consume | components/chat-view.tsx:110-170 | frames can end loading and raise an error but never turn loading back on or clear an error; the write counter only grows and the conversation count is kept |
| ChatView.ConsumeKeeps | components/chat-view.tsx:110-170 | the same holds after any sequence of frames, and loading never turns back on |
| ChatView.StepContent | components/chat-view.tsx:135-140 | one frame adds its content text to the assistant text and any other frame adds nothing |
| ChatView.ContentIsConcatenation | components/chat-view.tsx:102-140 | after any frames, the assistant text is the in-order concatenation of all content frames' texts; tool frames never reset it |
| ChatView.CallsUpdateShowsCalls | components/chat-view.tsx:143-148 | writing a `tool_calls` array makes every copy of the assistant message carry exactly that array |
| ChatView.ContentUpdateShowsCalls | components/chat-view.tsx:135-140 | writing the assistant text leaves the stored tool calls as they were |
| ChatView.AddAllShowsCalls | components/chat-view.tsx:151-164 | appending messages with other ids leaves the stored tool calls as they were |
| ChatView.StepShowsCalls | components/chat-view.tsx:135-164 | a `tool_calls` frame replaces the stored assistant message's tool calls with its array; every other frame leaves them, as long as tool messages never take the assistant's id |
| ChatView.ToolCallsAreLatest | components/chat-view.tsx:110-170 | after any frames, both `currentToolCalls` and the stored assistant message's tool calls are the last `tool_calls` frame's array; when no such frame arrived both keep what they held |
| ChatView.Frame | components/chat-view.tsx:119-166 | only `data: ` lines are frames; a frame is `[DONE]` exactly when its trimmed payload is `[DONE]`; any other data line is its decoded payload, or nothing when `JSON.parse` fails |
| ChatView.Caught | components/chat-view.tsx:171-175 | an `AbortError` sets no error; any other error shows its message, or 发送消息失败 when the message is empty; nothing else changes |
| ChatView.Run | components/chat-view.tsx:71-179 | loading is false on every path; a failed response shows its `error` field or "API request failed"; a missing body shows "No response body"; only a streamed reply touches the store; a stream read to the end keeps the error its frames set, a broken read shows its own as `Caught` does, and a thrown fetch likewise |
| ChatView.History | components/chat-view.tsx:73-81 | the prior messages' role, content, tool calls and tool call id, then exactly one new user message with the sent text |
| ChatView.HandleSend | components/chat-view.tsx:45-180 | nothing happens exactly when there is no current conversation or a turn is loading; otherwise loading ends false, the posted history is `History` of the messages as they were, and the turn is `Run` of the reply from a fresh loading turn over the store with the user and empty assistant messages added, whose store is the one left behind |
| ChatView.Posted | components/chat-view.tsx:51-67 | posting keeps the conversation ids and the selection, leaves other conversations alone, and adds two messages to the current one |
| ChatView.PostedAppends | components/chat-view.tsx:51-67 | sending appends the user message and then the empty assistant message to the current conversation and nothing else |
| ChatView.SendWritesConversation | components/chat-view.tsx:51-67 | other conversations are untouched; the current one keeps its earlier messages' ids and roles and then holds the user message followed by the assistant message; the store invariants hold |
| ChatView.AssistantShowsStream | components/chat-view.tsx:102-140 | with ids that do not collide, after a send the stored assistant message shows exactly the turn's text, whatever the reply |
| ChatView.PostedAssistantEmpty | components/chat-view.tsx:51-67 | right after posting, with fresh ids, the only message with the assistant's id has no text and no tool calls |
| ChatView.StreamedSendShows | components/chat-view.tsx:45-180 | a streamed send, read to the end or broken off, with ids that do not collide: the turn's text and the stored assistant message's text are every content frame's text in order; the turn and the stored message carry the last `tool_calls` array, and the stored message carries none when no such frame came |
| ChatView.CompletedStreamText | components/chat-view.tsx:102-140 | a stream read to the end leaves the turn's text as its starting text followed by every content frame's text in arrival order |
| Format.FormatTime | lib/format.ts:2-22 | under a minute, future timestamps included, gives 刚刚; otherwise the count in the largest unit below a week is the whole number of units elapsed (1..59 minutes, 1..23 hours, 1..6 days); from a week on, the month and day |
| Format.OlderIsNeverNewer | lib/format.ts:10-21 | an older timestamp never gets a more recent bucket, and within a bucket never a smaller count |
| Format.DecimalRoundTrip | lib/format.ts:13 | a printed count reads back as the count |
| Format.ReadRender | lib/format.ts:10-21 | every label's text reads back as that label |
| Format.RenderInjective | lib/format.ts:10-21 | different labels never print the same text |

## Left out

- Byte decoding is not modelled. `TextDecoder`, UTF-8 and the decoder shared between streams A and B are left out; chunks are already-decoded strings.
- The configuration check is not modelled: a missing API key returns a 500 response before any stream exists (app/api/chat/route.ts:13-21). A failing `req.json()` is also left out.
- JSON parsing and printing are parameters (`parse`, `decode`, `Tools.Parse`), and JSON numbers are integers.
- A tool-call fragment is assumed to carry a non-negative integer `index`. An absent `id`, `name` or `arguments` is the empty string.
- Exceptions thrown inside the relay's per-line `try` after parsing are not modelled. For example, a `tool_calls` value that is not iterable drops that line's content.
- `Store.Patch`: an update cannot set a field to `undefined`.
- `Store.AddMessage`: the conversation's `updatedAt` is the separate `now` parameter, standing for the `Date.now()` reading inside `addMessage`. `ChatView.AddAll` and `ChatView.Posted` pass the message's own `createdAt` as that `now`, so they treat the two readings as one.
- `Store.CreateConversation`: `createdAt` and `updatedAt` are two `Date.now()` readings in the code (lib/store.ts:41-42); the model uses one `now` for both.
- The 500 ms `setTimeout` delay in `getWeather` is left out, as are `persist`/localStorage, the `AbortController` plumbing, console logging, rendering components and build configuration.
- The text of `String(error)` for rejected fetches and broken reads is a parameter (`reason`). The text of V8's TypeError when arguments parse to `null` is a fixed constant (`Tools.NullReadError`) that stands for whatever the engine prints.
- `Format.FormatTime`: the calendar date for timestamps a week or more old comes from the `localDate` parameter; time zones and `Date` are not modelled.
- `ChatView.HandleSend`: the view's error and loading flags are returned in the turn rather than written to React state. `handleStop` is not modelled; an abort appears as a read that throws `AbortError`.
- `ChatView.Step`: its own contract states the turn's fields and the appended tool messages. The store writes of content and `tool_calls` frames are stated by `ChatView.StepKeeps` (text) and `ChatView.StepShowsCalls` (tool calls), which need tool-message ids that never equal the assistant's.
- Concurrency of `Promise.all` is not modelled: the tool round is an order-preserving map.
- `Tools.ExecuteTool`: it uses the corrected own-key table lookup (`Tools.GetWeather`). So for the twelve `Object.prototype` member names it answers with the default row, where the code resolves to `undefined` (or to `"{}"` for `__proto__`); see Findings. `Relay.Env.execute` inherits this.
- `Store.Appended`: the 30-character title counts code points, while JavaScript's `slice` counts UTF-16 code units; the two differ when the content has characters outside the Basic Multilingual Plane.
- `Base.Prefix`: `slice(0, n)` is modelled on code points, not UTF-16 code units, for the same reason.

## Findings

| source | as written | input that shows it | evidently intended | confidence | as-written member | corrected member |
|---|---|---|---|---|---|---|
| lib/tools.ts:67-76 | `weatherData[params.location]` indexes an object literal, so names inherited from `Object.prototype` are found | `get_weather` with `{"location": "toString"}` finds the inherited function; `JSON.stringify` of it is `undefined`, so `executeTool` resolves to no text | a city outside the table gets the default row echoing its name | not executed | Tools.LookupAsWritten, Tools.PrototypeKeyLookup | Tools.GetWeather |

=== FILE: accumulator.dfy ===
/** The index-addressed tool-call accumulator of the relay (app/api/chat/route.ts:196-216).
    The provider streams each tool call as fragments tagged with the call's `index`; the first
    fragment for an index opens a slot `{id, type: "function", function: {name: "", arguments: ""}}`
    and every fragment's `name` and `arguments` pieces are appended to that slot's fields. The slot
    array is a JavaScript array, so writing past its end leaves holes (`None`) in between. */
module Accumulator {
  import opened Base
  import opened Types

  /** One entry of `delta.tool_calls`. An absent `id`, `name` or `arguments` is the empty string;
      appending "" changes nothing, which is what the source's truthiness guards achieve. */
  datatype Delta = Delta(index: nat, id: string, name: string, arguments: string)

  /** The slot a delta extends: the existing one, or a fresh one carrying the delta's id. */
  function Opened(slots: CallList, d: Delta): ToolCall {
    if d.index < |slots| && slots[d.index].Some? then slots[d.index].value
    else ToolCall(d.id, "function", "", "")
  }

  /** Applies one delta to the slot array. */
  function Apply(slots: CallList, d: Delta): (r: CallList)
    ensures |r| == if d.index < |slots| then |slots| else d.index + 1
    ensures forall i :: 0 <= i < |slots| && i != d.index ==> r[i] == slots[i]
    ensures forall i :: |slots| <= i < |r| && i != d.index ==> r[i] == None
    ensures r[d.index].Some?
    ensures d.index < |slots| && slots[d.index].Some? ==>
              var old_ := slots[d.index].value;
              r[d.index].value == old_.(name := old_.name + d.name, arguments := old_.arguments + d.arguments)
    ensures !(d.index < |slots| && slots[d.index].Some?) ==>
              r[d.index].value == ToolCall(d.id, "function", d.name, d.arguments)
  {
    var base := Opened(slots, d);
    var call := base.(name := base.name + d.name, arguments := base.arguments + d.arguments);
    var padded := if d.index < |slots| then slots else slots + seq(d.index + 1 - |slots|, _ => None);
    padded[d.index := Some(call)]
  }

  /** The deltas of a stream applied in arrival order. */
  function ApplyAll(slots: CallList, ds: seq<Delta>): (r: CallList)
    // Slots only open: an opened slot stays open with the id it opened with, and every delta's
    // index ends up open.
    ensures |r| >= |slots|
    ensures forall i :: 0 <= i < |slots| && slots[i].Some? ==> r[i].Some? && r[i].value.id == slots[i].value.id
    ensures forall j :: 0 <= j < |ds| ==> ds[j].index < |r| && r[ds[j].index].Some?
    decreases |ds|
  {
    if |ds| == 0 then slots else Apply(ApplyAll(slots, ds[..|ds| - 1]), ds[|ds| - 1])
  }

  /** Feeding two batches of deltas one after the other is feeding their concatenation. */
  lemma {:induction false} ApplyAllAppend(slots: CallList, a: seq<Delta>, b: seq<Delta>)
    ensures ApplyAll(ApplyAll(slots, a), b) == ApplyAll(slots, a + b)
    decreases |b|
  {
    if |b| == 0 {
      assert a + b == a;
    } else {
      ApplyAllAppend(slots, a, b[..|b| - 1]);
      assert (a + b)[..|a + b| - 1] == a + b[..|b| - 1];
    }
  }

  // ---- An independent description of the finished array ----

  /** The id of the first delta addressed to index `i`, if any delta is. */
  function FirstId(ds: seq<Delta>, i: nat): Option<string>
    decreases |ds|
  {
    if |ds| == 0 then None
    else
      match FirstId(ds[..|ds| - 1], i)
      case Some(id) => Some(id)
      case None => if ds[|ds| - 1].index == i then Some(ds[|ds| - 1].id) else None
  }

  /** The `name` fragments addressed to index `i`, concatenated in arrival order. */
  function Names(ds: seq<Delta>, i: nat): string
    decreases |ds|
  {
    if |ds| == 0 then ""
    else Names(ds[..|ds| - 1], i) + (if ds[|ds| - 1].index == i then ds[|ds| - 1].name else "")
  }

  /** The `arguments` fragments addressed to index `i`, concatenated in arrival order. */
  function Arguments(ds: seq<Delta>, i: nat): string
    decreases |ds|
  {
    if |ds| == 0 then ""
    else Arguments(ds[..|ds| - 1], i) + (if ds[|ds| - 1].index == i then ds[|ds| - 1].arguments else "")
  }

  /** One more than the largest index addressed (the JavaScript array's `length`). */
  function Width(ds: seq<Delta>): nat
    decreases |ds|
  {
    if |ds| == 0 then 0
    else
      var w := Width(ds[..|ds| - 1]);
      if ds[|ds| - 1].index + 1 > w then ds[|ds| - 1].index + 1 else w
  }

  /** The call assembled at index `i`: the first fragment's id, type "function", and all the
      index's name and arguments fragments in order; a hole when no fragment names `i`. */
  function Assembled(ds: seq<Delta>, i: nat): Option<ToolCall> {
    match FirstId(ds, i)
    case None => None
    case Some(id) => Some(ToolCall(id, "function", Names(ds, i), Arguments(ds, i)))
  }

  lemma FirstIdBelowWidth(ds: seq<Delta>, i: nat)
    requires i >= Width(ds)
    ensures FirstId(ds, i).None?
    decreases |ds|
  {
    if |ds| > 0 {
      FirstIdBelowWidth(ds[..|ds| - 1], i);
    }
  }

  lemma NoFragmentsWithoutId(ds: seq<Delta>, i: nat)
    requires FirstId(ds, i).None?
    ensures Names(ds, i) == "" && Arguments(ds, i) == ""
    decreases |ds|
  {
    if |ds| > 0 {
      NoFragmentsWithoutId(ds[..|ds| - 1], i);
    }
  }

  /** Accumulating a stream's deltas from an empty array yields, slot for slot, the assembled calls:
      each index's id is the first fragment's, its name and arguments are the in-order
      concatenation of that index's fragments, and no other slot is touched. */
  lemma {:induction false} AccumulateAssembles(ds: seq<Delta>)
    ensures |ApplyAll([], ds)| == Width(ds)
    ensures forall i :: 0 <= i < Width(ds) ==> ApplyAll([], ds)[i] == Assembled(ds, i)
    decreases |ds|
  {
    if |ds| > 0 {
      var pre := ds[..|ds| - 1];
      var d := ds[|ds| - 1];
      AccumulateAssembles(pre);
      var s := ApplyAll([], pre);
      var r := Apply(s, d);
      assert r == ApplyAll([], ds);
      forall i | 0 <= i < Width(ds) ensures r[i] == Assembled(ds, i) {
        if i >= Width(pre) {
          FirstIdBelowWidth(pre, i);
        }
        if i != d.index {
          assert Names(ds, i) == Names(pre, i);
          assert Arguments(ds, i) == Arguments(pre, i);
          assert FirstId(ds, i) == FirstId(pre, i);
        } else if i < |s| && s[i].Some? {
          assert FirstId(ds, i) == FirstId(pre, i);
        } else {
          NoFragmentsWithoutId(pre, i);
          assert FirstId(ds, i) == Some(d.id);
        }
      }
    }
  }

  /** Fragment granularity does not matter: two consecutive fragments for one index have the same
      effect as a single fragment carrying both pieces (the later fragment's id is never used). */
  lemma SplitFragmentsAgree(slots: CallList, i: nat, id1: string, id2: string,
                            n1: string, n2: string, a1: string, a2: string)
    ensures Apply(Apply(slots, Delta(i, id1, n1, a1)), Delta(i, id2, n2, a2))
         == Apply(slots, Delta(i, id1, n1 + n2, a1 + a2))
  {
    var once := Apply(slots, Delta(i, id1, n1 + n2, a1 + a2));
    var twice := Apply(Apply(slots, Delta(i, id1, n1, a1)), Delta(i, id2, n2, a2));
    assert |once| == |twice|;
    forall k | 0 <= k < |once| ensures once[k] == twice[k] {
      if k == i {
        if i < |slots| && slots[i].Some? {
          var c := slots[i].value;
          assert c.name + n1 + n2 == c.name + (n1 + n2);
          assert c.arguments + a1 + a2 == c.arguments + (a1 + a2);
        }
      }
    }
  }
}

=== FILE: base.dfy ===
/** Values and string operations of the JavaScript runtime that the chat code leans on:
    `undefined`/`null` as an Option, `String.prototype.trim`, `startsWith` and `slice`. */
module Base {

  /** A value that may be absent (`undefined` or `null` in the sources). */
  datatype Option<+T> = None | Some(value: T)

  /** The code points ECMAScript counts as WhiteSpace or LineTerminator: the ones `trim` removes. */
  predicate IsJsSpace(c: char) {
    || c == ' ' || c == '\t' || c == '\n' || c == '\r' || c == '\U{000B}' || c == '\U{000C}'
    || c == '\U{00A0}' || c == '\U{1680}' || ('\U{2000}' <= c <= '\U{200A}')
    || c == '\U{2028}' || c == '\U{2029}' || c == '\U{202F}' || c == '\U{205F}'
    || c == '\U{3000}' || c == '\U{FEFF}'
  }

  /** Every character of `s` is whitespace (the empty string included). */
  predicate IsBlank(s: string) {
    forall k :: 0 <= k < |s| ==> IsJsSpace(s[k])
  }

  /** `r` occurs in `s` with nothing but whitespace before it and after it. */
  predicate BlankMargins(s: string, r: string) {
    exists i :: 0 <= i <= |s| - |r| && r == s[i..i + |r|] && IsBlank(s[..i]) && IsBlank(s[i + |r|..])
  }

  /** Drops leading whitespace: the result is the longest suffix of `s` that does not start with whitespace. */
  function TrimStart(s: string): (r: string)
    ensures |r| <= |s| && r == s[|s| - |r|..]
    ensures IsBlank(s[..|s| - |r|])
    ensures |r| > 0 ==> !IsJsSpace(r[0])
  {
    if |s| > 0 && IsJsSpace(s[0]) then TrimStart(s[1..]) else s
  }

  /** Drops trailing whitespace: the result is the longest prefix of `s` that does not end with whitespace. */
  function TrimEnd(s: string): (r: string)
    ensures |r| <= |s| && r == s[..|r|]
    ensures IsBlank(s[|r|..])
    ensures |r| > 0 ==> !IsJsSpace(r[|r| - 1])
  {
    if |s| > 0 && IsJsSpace(s[|s| - 1]) then TrimEnd(s[..|s| - 1]) else s
  }

  /** `s.trim()`: a stretch of `s` with only whitespace before and after it, and none at its ends. */
  function Trim(s: string): (r: string)
    ensures |r| <= |s|
    ensures BlankMargins(s, r)
    ensures |r| > 0 ==> !IsJsSpace(r[0]) && !IsJsSpace(r[|r| - 1])
  {
    var t := TrimStart(s);
    TrimStretch(s, t, TrimEnd(t));
    TrimEnd(t)
  }

  /** Trimming the front and then the back leaves a stretch of `s` between two blank pieces. */
  lemma TrimStretch(s: string, t: string, r: string)
    requires |t| <= |s| && t == s[|s| - |t|..] && IsBlank(s[..|s| - |t|])
    requires |r| <= |t| && r == t[..|r|] && IsBlank(t[|r|..])
    ensures BlankMargins(s, r)
  {
    var i := |s| - |t|;
    assert s[i + |r|..] == t[|r|..];
    assert r == s[i..i + |r|];
  }

  /** `s.trim()` is empty exactly when `s` is blank, so `s && s.trim()` is falsy exactly then. */
  lemma TrimEmptyIffBlank(s: string)
    ensures Trim(s) == "" <==> IsBlank(s)
  {
    var t := TrimStart(s);
    if Trim(s) == "" {
      assert s == s[..|s| - |t|];
    }
  }

  /** `s.startsWith(p)`. */
  predicate StartsWith(s: string, p: string) {
    |p| <= |s| && s[..|p|] == p
  }

  /** `s.slice(0, n)` for a non-negative `n`: the first `n` characters, or all of `s` when it is shorter. */
  function Prefix(s: string, n: nat): (r: string)
    ensures |r| == if n < |s| then n else |s|
    ensures StartsWith(s, r)
  {
    if n < |s| then s[..n] else s
  }
}

=== FILE: chat_view.dfy ===
/** The browser side of a turn: `handleSend` in components/chat-view.tsx:45-180. It records the
    user's message and an empty assistant message, posts the history, then reads the relay's
    frames with the same line framer the relay uses. It folds each frame into the turn's state
    (the assistant text so far, the latest tool calls, the error shown, the loading flag) and
    writes it through to the conversation store. Message ids and clock readings are parameters. */
module ChatView {
  import opened Base
  import opened Types
  import Framer
  import Store
  import Relay

  /** A generated message id with the clock reading taken for it. */
  datatype Stamp = Stamp(id: string, at: int)

  /** What stays fixed during one turn: the conversation written to, the assistant message's id,
      and the source of ids and clock readings for the store writes (the n-th write of the turn
      uses `stamps(n)`). */
  datatype Session = Session(conversationId: string, assistantId: string, stamps: nat -> Stamp)

  /** The state one turn builds up. `content` is `currentContent` and `toolCalls` is
      `currentToolCalls`; `ticks` counts the store writes made so far; `error` and `loading`
      are the view's flags. */
  datatype Turn = Turn(
    store: Store.ChatState,
    content: string,
    toolCalls: CallList,
    ticks: nat,
    error: Option<string>,
    loading: bool)

  /** The tool messages a `tool_results` frame adds, one per result in order. Reading `.content`
      of a `null` entry throws, and the catch around the frame drops the rest of it, so the
      messages stop at the first hole. */
  function ToolMessages(results: ResultList, stamps: nat -> Stamp, from: nat): (ms: seq<Message>)
    ensures |ms| <= |results|
    ensures forall k :: 0 <= k < |ms| ==>
              && results[k].Some?
              && ms[k] == Message(stamps(from + k).id, Tool, results[k].value.content, stamps(from + k).at,
                                  None, Some(results[k].value.toolCallId))
    ensures |ms| < |results| ==> results[|ms|].None?
    decreases |results|
  {
    if |results| == 0 || results[0].None? then []
    else
      var r := results[0].value;
      [Message(stamps(from).id, Tool, r.content, stamps(from).at, None, Some(r.toolCallId))]
      + ToolMessages(results[1..], stamps, from + 1)
  }

  /** `addMessage` for each message in turn. */
  function AddAll(s: Store.ChatState, conversationId: string, ms: seq<Message>): (r: Store.ChatState)
    ensures |r.conversations| == |s.conversations|
    ensures forall k :: 0 <= k < |s.conversations| ==>
              if s.conversations[k].id == conversationId
              then r.conversations[k].id == conversationId
                   && r.conversations[k].messages == s.conversations[k].messages + ms
              else r.conversations[k] == s.conversations[k]
    ensures r.currentId == s.currentId
    ensures Store.Consistent(s) ==> Store.Consistent(r)
    ensures Store.DistinctIds(s.conversations) ==> Store.DistinctIds(r.conversations)
    decreases |ms|
  {
    if |ms| == 0 then s
    else
      var s' := Store.AddMessage(s, conversationId, ms[0], ms[0].createdAt);
      assert forall k :: 0 <= k < |s.conversations| && s.conversations[k].id == conversationId ==>
               s'.conversations[k].messages + ms[1..] == s.conversations[k].messages + ms by {
        assert ms == [ms[0]] + ms[1..];
      }
      AddAll(s', conversationId, ms[1..])
  }

  function ContentPatch(text: string): Store.Patch {
    Store.Patch(None, None, Some(text), None, None, None)
  }

  function CallsPatch(calls: CallList): Store.Patch {
    Store.Patch(None, None, None, None, Some(calls), None)
  }

  /** One frame (chat-view.tsx:119-167). `None` is a line that is not a data line or whose JSON
      does not parse: it changes nothing. */
  function Step(t: Turn, frame: Option<Relay.Event>, ss: Session): (r: Turn)
    ensures frame.None? ==> r == t
    // `[DONE]` only ends the loading indicator; frames after it are still applied.
    ensures frame == Some(Relay.Done) ==> r == t.(loading := false)
    // A non-empty error frame sets the error and nothing else.
    ensures frame.Some? && frame.value.Data? && frame.value.payload.Error? ==>
              r == (if frame.value.payload.message != "" then t.(error := Some(frame.value.payload.message)) else t)
    // Content accretes; the other fields stay.
    ensures frame.Some? && frame.value.Data? && frame.value.payload.Content? ==>
              && r.content == t.content + frame.value.payload.text
              && r.toolCalls == t.toolCalls && r.error == t.error && r.loading == t.loading
    // The latest `tool_calls` array replaces the previous one wholesale.
    ensures frame.Some? && frame.value.Data? && frame.value.payload.Calls? ==>
              && r.toolCalls == frame.value.payload.calls
              && r.content == t.content && r.error == t.error && r.loading == t.loading
    ensures |r.store.conversations| == |t.store.conversations|
    // Tool results become tool messages at the end of the conversation, in order.
    ensures frame.Some? && frame.value.Data? && frame.value.payload.Results? ==>
              && r.content == t.content && r.toolCalls == t.toolCalls && r.error == t.error && r.loading == t.loading
              && forall k :: 0 <= k < |t.store.conversations| && t.store.conversations[k].id == ss.conversationId ==>
                   r.store.conversations[k].messages
                   == t.store.conversations[k].messages + ToolMessages(frame.value.payload.results, ss.stamps, t.ticks)
    ensures r.ticks >= t.ticks
  {
    match frame
    case None => t
    case Some(Done) => t.(loading := false)
    case Some(Data(p)) =>
      match p
      case Error(message) => if message != "" then t.(error := Some(message)) else t
      case Content(text) =>
        if text == "" then t
        else
          var content := t.content + text;
          var now := ss.stamps(t.ticks).at;
          t.(store := Store.UpdateMessage(t.store, ss.conversationId, ss.assistantId, ContentPatch(content), now),
             content := content, ticks := t.ticks + 1)
      case Calls(calls) =>
        var now := ss.stamps(t.ticks).at;
        t.(store := Store.UpdateMessage(t.store, ss.conversationId, ss.assistantId, CallsPatch(calls), now),
           toolCalls := calls, ticks := t.ticks + 1)
      case Results(results) =>
        var ms := ToolMessages(results, ss.stamps, t.ticks);
        t.(store := AddAll(t.store, ss.conversationId, ms), ticks := t.ticks + |ms|)
  }

  /** The frames in order. */
  function Consume(t: Turn, frames: seq<Option<Relay.Event>>, ss: Session): (r: Turn)
    // Frames can end the loading state and raise an error, never the reverse.
    ensures r.loading ==> t.loading
    ensures t.error.Some? ==> r.error.Some?
    ensures r.ticks >= t.ticks
    ensures |r.store.conversations| == |t.store.conversations|
    decreases |frames|
  {
    if |frames| == 0 then t else Consume(Step(t, frames[0], ss), frames[1..], ss)
  }

  // ---- What the fold keeps ----

  /** `b` is `a` after writes to conversation `conversationId` only, each of which appended
      messages or changed fields other than a message's id and role. */
  ghost predicate Extends(a: Store.ChatState, b: Store.ChatState, conversationId: string) {
    && |b.conversations| == |a.conversations|
    && b.currentId == a.currentId
    && forall k :: 0 <= k < |a.conversations| ==>
         if a.conversations[k].id != conversationId then b.conversations[k] == a.conversations[k]
         else
           && b.conversations[k].id == conversationId
           && |a.conversations[k].messages| <= |b.conversations[k].messages|
           && forall j :: 0 <= j < |a.conversations[k].messages| ==>
                && b.conversations[k].messages[j].id == a.conversations[k].messages[j].id
                && b.conversations[k].messages[j].role == a.conversations[k].messages[j].role
  }

  lemma ExtendsTransitive(a: Store.ChatState, b: Store.ChatState, c: Store.ChatState, conversationId: string)
    requires Extends(a, b, conversationId) && Extends(b, c, conversationId)
    ensures Extends(a, c, conversationId)
  {
  }

  /** Every message of conversation `conversationId` with the assistant's id shows `content`. */
  ghost predicate Mirrors(s: Store.ChatState, conversationId: string, assistantId: string, content: string) {
    forall k, j ::
      && 0 <= k < |s.conversations| && s.conversations[k].id == conversationId
      && 0 <= j < |s.conversations[k].messages| && s.conversations[k].messages[j].id == assistantId
      ==> s.conversations[k].messages[j].content == content
  }

  /** The session's writes never mint the assistant message's id again. */
  ghost predicate FreshStamps(ss: Session) {
    forall n: nat :: ss.stamps(n).id != ss.assistantId
  }

  /** A patch that leaves ids and roles alone only changes the fields of existing messages. */
  lemma UpdateExtends(s: Store.ChatState, conversationId: string, messageId: string, p: Store.Patch, now: int)
    requires p.id.None? && p.role.None?
    ensures Extends(s, Store.UpdateMessage(s, conversationId, messageId, p, now), conversationId)
  {
  }

  /** Writing the turn's text into the assistant message makes every copy of it show that text. */
  lemma ContentUpdateMirrors(s: Store.ChatState, conversationId: string, assistantId: string, content: string, now: int)
    ensures Mirrors(Store.UpdateMessage(s, conversationId, assistantId, ContentPatch(content), now), conversationId, assistantId, content)
  {
  }

  /** Writing the tool calls leaves the assistant message's text as it was. */
  lemma CallsUpdateMirrors(s: Store.ChatState, conversationId: string, assistantId: string, calls: CallList, now: int, content: string)
    requires Mirrors(s, conversationId, assistantId, content)
    ensures Mirrors(Store.UpdateMessage(s, conversationId, assistantId, CallsPatch(calls), now), conversationId, assistantId, content)
  {
  }

  lemma AddAllExtends(s: Store.ChatState, conversationId: string, ms: seq<Message>)
    ensures Extends(s, AddAll(s, conversationId, ms), conversationId)
  {
  }

  /** Appending messages with other ids leaves the assistant message's text as it was. */
  lemma AddAllMirrors(s: Store.ChatState, conversationId: string, assistantId: string, ms: seq<Message>, content: string)
    requires forall m :: m in ms ==> m.id != assistantId
    requires Mirrors(s, conversationId, assistantId, content)
    ensures Mirrors(AddAll(s, conversationId, ms), conversationId, assistantId, content)
  {
    var r := AddAll(s, conversationId, ms);
    forall k, j |
      && 0 <= k < |r.conversations| && r.conversations[k].id == conversationId
      && 0 <= j < |r.conversations[k].messages| && r.conversations[k].messages[j].id == assistantId
      ensures r.conversations[k].messages[j].content == content
    {
      assert j < |s.conversations[k].messages|;
    }
  }

  /** Every message of conversation `conversationId` with the assistant's id carries `calls` as
      its tool calls (`None`: it has none). */
  ghost predicate ShowsCalls(s: Store.ChatState, conversationId: string, assistantId: string, calls: Option<CallList>) {
    forall k, j ::
      && 0 <= k < |s.conversations| && s.conversations[k].id == conversationId
      && 0 <= j < |s.conversations[k].messages| && s.conversations[k].messages[j].id == assistantId
      ==> s.conversations[k].messages[j].toolCalls == calls
  }

  /** Writing the turn's text leaves the assistant message's tool calls as they were. */
  lemma ContentUpdateShowsCalls(s: Store.ChatState, conversationId: string, assistantId: string, content: string, now: int,
                                calls: Option<CallList>)
    requires ShowsCalls(s, conversationId, assistantId, calls)
    ensures ShowsCalls(Store.UpdateMessage(s, conversationId, assistantId, ContentPatch(content), now), conversationId, assistantId, calls)
  {
  }

  /** Writing a `tool_calls` array makes every copy of the assistant message carry exactly it. */
  lemma CallsUpdateShowsCalls(s: Store.ChatState, conversationId: string, assistantId: string, calls: CallList, now: int)
    ensures ShowsCalls(Store.UpdateMessage(s, conversationId, assistantId, CallsPatch(calls), now), conversationId, assistantId, Some(calls))
  {
  }

  /** Appending messages with other ids leaves the assistant message's tool calls as they were. */
  lemma AddAllShowsCalls(s: Store.ChatState, conversationId: string, assistantId: string, ms: seq<Message>, calls: Option<CallList>)
    requires forall m :: m in ms ==> m.id != assistantId
    requires ShowsCalls(s, conversationId, assistantId, calls)
    ensures ShowsCalls(AddAll(s, conversationId, ms), conversationId, assistantId, calls)
  {
    var r := AddAll(s, conversationId, ms);
    forall k, j |
      && 0 <= k < |r.conversations| && r.conversations[k].id == conversationId
      && 0 <= j < |r.conversations[k].messages| && r.conversations[k].messages[j].id == assistantId
      ensures r.conversations[k].messages[j].toolCalls == calls
    {
      assert j < |s.conversations[k].messages|;
    }
  }

  /** The tool messages of one `tool_results` frame never take the assistant message's id. */
  lemma ToolMessagesFresh(results: ResultList, ss: Session, from: nat)
    requires FreshStamps(ss)
    ensures forall m :: m in ToolMessages(results, ss.stamps, from) ==> m.id != ss.assistantId
  {
    var ms := ToolMessages(results, ss.stamps, from);
    forall m | m in ms ensures m.id != ss.assistantId {
      var k :| 0 <= k < |ms| && ms[k] == m;
      assert m.id == ss.stamps(from + k).id;
    }
  }

  /** Every frame keeps the store's invariants, only writes to the session's conversation, and
      keeps the stored assistant message in step with the turn's text. */
  lemma StepKeeps(t: Turn, frame: Option<Relay.Event>, ss: Session)
    ensures Extends(t.store, Step(t, frame, ss).store, ss.conversationId)
    ensures Store.Consistent(t.store) ==> Store.Consistent(Step(t, frame, ss).store)
    ensures Store.DistinctIds(t.store.conversations) ==> Store.DistinctIds(Step(t, frame, ss).store.conversations)
    ensures FreshStamps(ss) && Mirrors(t.store, ss.conversationId, ss.assistantId, t.content) ==>
              Mirrors(Step(t, frame, ss).store, ss.conversationId, ss.assistantId, Step(t, frame, ss).content)
  {
    var r := Step(t, frame, ss);
    var now := ss.stamps(t.ticks).at;
    if frame.Some? && frame.value.Data? {
      match frame.value.payload
      case Error(_) =>
      case Content(text) =>
        if text != "" {
          UpdateExtends(t.store, ss.conversationId, ss.assistantId, ContentPatch(r.content), now);
          ContentUpdateMirrors(t.store, ss.conversationId, ss.assistantId, r.content, now);
        }
      case Calls(calls) =>
        UpdateExtends(t.store, ss.conversationId, ss.assistantId, CallsPatch(calls), now);
        if Mirrors(t.store, ss.conversationId, ss.assistantId, t.content) {
          CallsUpdateMirrors(t.store, ss.conversationId, ss.assistantId, calls, now, t.content);
        }
      case Results(results) =>
        var ms := ToolMessages(results, ss.stamps, t.ticks);
        AddAllExtends(t.store, ss.conversationId, ms);
        if FreshStamps(ss) && Mirrors(t.store, ss.conversationId, ss.assistantId, t.content) {
          ToolMessagesFresh(results, ss, t.ticks);
          AddAllMirrors(t.store, ss.conversationId, ss.assistantId, ms, t.content);
        }
    }
  }

  /** The fold keeps what each frame keeps. */
  lemma {:induction false} ConsumeKeeps(t: Turn, frames: seq<Option<Relay.Event>>, ss: Session)
    ensures Extends(t.store, Consume(t, frames, ss).store, ss.conversationId)
    ensures Store.Consistent(t.store) ==> Store.Consistent(Consume(t, frames, ss).store)
    ensures Store.DistinctIds(t.store.conversations) ==> Store.DistinctIds(Consume(t, frames, ss).store.conversations)
    ensures FreshStamps(ss) && Mirrors(t.store, ss.conversationId, ss.assistantId, t.content) ==>
              Mirrors(Consume(t, frames, ss).store, ss.conversationId, ss.assistantId, Consume(t, frames, ss).content)
    ensures !t.loading ==> !Consume(t, frames, ss).loading
    decreases |frames|
  {
    if |frames| > 0 {
      var t' := Step(t, frames[0], ss);
      StepKeeps(t, frames[0], ss);
      ConsumeKeeps(t', frames[1..], ss);
      ExtendsTransitive(t.store, t'.store, Consume(t, frames, ss).store, ss.conversationId);
    }
  }

  /** The text a frame carries: a content frame's text, nothing for any other frame. */
  function FrameText(frame: Option<Relay.Event>): string {
    if frame.Some? && frame.value.Data? && frame.value.payload.Content? then frame.value.payload.text else ""
  }

  /** The text of every content frame, in order. */
  function ContentText(frames: seq<Option<Relay.Event>>): string
    decreases |frames|
  {
    if |frames| == 0 then "" else FrameText(frames[0]) + ContentText(frames[1..])
  }

  /** One frame adds its text to the turn's text and nothing else. */
  lemma StepContent(t: Turn, frame: Option<Relay.Event>, ss: Session)
    ensures Step(t, frame, ss).content == t.content + FrameText(frame)
  {
    assert t.content + "" == t.content;
  }

  /** The assistant text after the frames is the text it started with followed by every content
      frame's text, in order: nothing else touches it. */
  lemma {:induction false} ContentIsConcatenation(t: Turn, frames: seq<Option<Relay.Event>>, ss: Session)
    ensures Consume(t, frames, ss).content == t.content + ContentText(frames)
    decreases |frames|
  {
    if |frames| > 0 {
      var here := FrameText(frames[0]);
      var t1 := Step(t, frames[0], ss);
      StepContent(t, frames[0], ss);
      ContentIsConcatenation(t1, frames[1..], ss);
      assert (t.content + here) + ContentText(frames[1..]) == t.content + (here + ContentText(frames[1..]));
    }
  }

  /** The `tool_calls` array a frame carries, if it is a `tool_calls` frame. */
  function FrameCalls(frame: Option<Relay.Event>): Option<CallList> {
    if frame.Some? && frame.value.Data? && frame.value.payload.Calls? then Some(frame.value.payload.calls) else None
  }

  /** The last `tool_calls` array among the frames, if there is one. */
  function LatestCalls(frames: seq<Option<Relay.Event>>): Option<CallList>
    decreases |frames|
  {
    if |frames| == 0 then None
    else if FrameCalls(frames[|frames| - 1]).Some? then FrameCalls(frames[|frames| - 1])
    else LatestCalls(frames[..|frames| - 1])
  }

  /** One frame's effect on the stored assistant message's tool calls: a `tool_calls` frame
      replaces them, any other frame leaves them. */
  lemma StepShowsCalls(t: Turn, frame: Option<Relay.Event>, ss: Session, shown: Option<CallList>)
    requires FreshStamps(ss)
    requires ShowsCalls(t.store, ss.conversationId, ss.assistantId, shown)
    ensures ShowsCalls(Step(t, frame, ss).store, ss.conversationId, ss.assistantId,
                       if FrameCalls(frame).Some? then FrameCalls(frame) else shown)
  {
    var r := Step(t, frame, ss);
    var now := ss.stamps(t.ticks).at;
    if frame.Some? && frame.value.Data? {
      match frame.value.payload
      case Error(_) =>
      case Content(text) =>
        if text != "" {
          ContentUpdateShowsCalls(t.store, ss.conversationId, ss.assistantId, r.content, now, shown);
        }
      case Calls(calls) =>
        CallsUpdateShowsCalls(t.store, ss.conversationId, ss.assistantId, calls, now);
      case Results(results) =>
        ToolMessagesFresh(results, ss, t.ticks);
        AddAllShowsCalls(t.store, ss.conversationId, ss.assistantId, ToolMessages(results, ss.stamps, t.ticks), shown);
    }
  }

  lemma {:induction false} ConsumeSnoc(t: Turn, frames: seq<Option<Relay.Event>>, f: Option<Relay.Event>, ss: Session)
    ensures Consume(t, frames + [f], ss) == Step(Consume(t, frames, ss), f, ss)
    decreases |frames|
  {
    if |frames| == 0 {
      assert frames + [f] == [f];
    } else {
      assert (frames + [f])[0] == frames[0];
      assert (frames + [f])[1..] == frames[1..] + [f];
      ConsumeSnoc(Step(t, frames[0], ss), frames[1..], f, ss);
    }
  }

  /** Each `tool_calls` frame replaces the array before it, both in the turn's state and in the
      stored assistant message: after the frames both hold the last one's array, or what they held
      before when no frame carried one. `shown` is what the stored message carried. */
  lemma {:induction false} ToolCallsAreLatest(t: Turn, frames: seq<Option<Relay.Event>>, ss: Session, shown: Option<CallList>)
    ensures Consume(t, frames, ss).toolCalls == if LatestCalls(frames).Some? then LatestCalls(frames).value else t.toolCalls
    ensures FreshStamps(ss) && ShowsCalls(t.store, ss.conversationId, ss.assistantId, shown) ==>
              ShowsCalls(Consume(t, frames, ss).store, ss.conversationId, ss.assistantId,
                         if LatestCalls(frames).Some? then LatestCalls(frames) else shown)
    decreases |frames|
  {
    if |frames| > 0 {
      var pre := frames[..|frames| - 1];
      var f := frames[|frames| - 1];
      assert frames == pre + [f];
      ConsumeSnoc(t, pre, f, ss);
      ToolCallsAreLatest(t, pre, ss, shown);
      if FreshStamps(ss) && ShowsCalls(t.store, ss.conversationId, ss.assistantId, shown) {
        StepShowsCalls(Consume(t, pre, ss), f, ss, if LatestCalls(pre).Some? then LatestCalls(pre) else shown);
      }
    }
  }

  /** The frame a received line stands for (chat-view.tsx:119-132): a data line whose payload is
      `[DONE]` is the terminal marker; any other data line is what `decode` (`JSON.parse`) makes
      of its payload. */
  function Frame(line: string, decode: string -> Option<Relay.Payload>): (f: Option<Relay.Event>)
    ensures !StartsWith(line, "data: ") ==> f.None?
    ensures f == Some(Relay.Done) <==> Framer.DataPayload(line) == Some(Framer.DoneMarker)
    // Any other data line is its decoded payload, or nothing when the payload does not parse.
    ensures Framer.DataPayload(line).Some? && Framer.DataPayload(line) != Some(Framer.DoneMarker) ==>
              if decode(Framer.DataPayload(line).value).Some?
              then f == Some(Relay.Data(decode(Framer.DataPayload(line).value).value))
              else f.None?
  {
    match Framer.DataPayload(line)
    case None => None
    case Some(data) =>
      if data == Framer.DoneMarker then Some(Relay.Done)
      else
        (match decode(data)
         case None => None
         case Some(p) => Some(Relay.Data(p)))
  }

  function Frames(lines: seq<string>, decode: string -> Option<Relay.Payload>): (fs: seq<Option<Relay.Event>>)
    ensures |fs| == |lines|
    ensures forall k :: 0 <= k < |lines| ==> fs[k] == Frame(lines[k], decode)
  {
    seq(|lines|, k requires 0 <= k < |lines| => Frame(lines[k], decode))
  }

  /** How reading the relay's body ends: `done`, or `read()` throws (an abort throws `AbortError`). */
  datatype ReadEnd = Complete | ReadThrew(name: string, message: string)

  /** What `fetch("/api/chat")` gives the view. */
  datatype Reply =
    | Threw(name: string, message: string)              // fetch, or response.json() of a failed response, threw
    | Failed(errorField: string)                        // !response.ok; `errorField` is the body's `error` ("" if absent)
    | Bodiless                                          // response.body is missing
    | Streamed(chunks: seq<string>, end: ReadEnd)

  /** The catch block (chat-view.tsx:171-175): an abort is silent, any other error is shown. */
  function Caught(t: Turn, name: string, message: string): (r: Turn)
    ensures name == "AbortError" ==> r == t
    ensures name != "AbortError" ==> r.error.Some? && r.error.value != ""
    ensures name != "AbortError" && message != "" ==> r.error == Some(message)
    ensures r.(error := t.error) == t
  {
    if name == "AbortError" then t
    else t.(error := Some(if message != "" then message else "发送消息失败"))
  }

  /** The frames the relay's body carries. */
  function ReplyFrames(chunks: seq<string>, decode: string -> Option<Relay.Payload>): seq<Option<Relay.Event>> {
    Frames(Framer.StreamLines(chunks), decode)
  }

  /** The try/catch/finally around the request (chat-view.tsx:70-179): whatever happens, loading
      ends; only a streamed reply touches the store. */
  function Run(start: Turn, reply: Reply, decode: string -> Option<Relay.Payload>, ss: Session): (r: Turn)
    ensures !r.loading
    ensures !reply.Streamed? ==> r.store == start.store && r.content == start.content
    ensures reply.Threw? && reply.name == "AbortError" ==> r.error == start.error
    ensures reply.Failed? ==> r.error == Some(if reply.errorField != "" then reply.errorField else "API request failed")
    ensures reply.Bodiless? ==> r.error == Some("No response body")
    ensures reply.Threw? ==> r.error == Caught(start, reply.name, reply.message).error
    ensures reply.Streamed? ==> r == Consume(start, ReplyFrames(reply.chunks, decode), ss).(error := r.error, loading := false)
    // A stream read to the end keeps whatever error its frames set; a broken read shows its own.
    ensures reply.Streamed? && reply.end.Complete? ==> r.error == Consume(start, ReplyFrames(reply.chunks, decode), ss).error
    ensures reply.Streamed? && reply.end.ReadThrew? ==>
              r.error == Caught(Consume(start, ReplyFrames(reply.chunks, decode), ss), reply.end.name, reply.end.message).error
  {
    var t := match reply
      case Threw(name, message) => Caught(start, name, message)
      case Failed(errorField) =>
        Caught(start, "Error", if errorField != "" then errorField else "API request failed")
      case Bodiless => Caught(start, "Error", "No response body")
      case Streamed(chunks, end) =>
        var u := Consume(start, ReplyFrames(chunks, decode), ss);
        (match end
         case Complete => u
         case ReadThrew(name, message) => Caught(u, name, message));
    t.(loading := false)
  }

  /** A stored message as the history entry sent to the server: `{role, content, tool_calls, tool_call_id}`. */
  function Entry(m: Message): WireMessage {
    WireMessage(m.role, m.content, m.toolCalls, m.toolCallId)
  }

  /** The request history (chat-view.tsx:73-81): the conversation's messages as they were when the
      send began, then exactly one new user message with the sent text. */
  function History(prior: seq<Message>, content: string): (h: seq<WireMessage>)
    ensures |h| == |prior| + 1
    ensures forall k :: 0 <= k < |prior| ==>
              h[k].role == prior[k].role && h[k].content == prior[k].content
              && h[k].toolCalls == prior[k].toolCalls && h[k].toolCallId == prior[k].toolCallId
    ensures h[|prior|] == WireMessage(User, content, None, None)
  {
    seq(|prior|, k requires 0 <= k < |prior| => Entry(prior[k])) + [WireMessage(User, content, None, None)]
  }

  /** What one call of `handleSend` amounts to. */
  datatype Outcome =
    | Ignored
    | Sent(store: Store.ChatState, history: seq<WireMessage>, turn: Turn)

  /** No message already in the conversation carries the assistant message's id. */
  ghost predicate FreshAssistantId(s: Store.ChatState, conversationId: string, assistantId: string) {
    forall k, j ::
      && 0 <= k < |s.conversations| && s.conversations[k].id == conversationId
      && 0 <= j < |s.conversations[k].messages|
      ==> s.conversations[k].messages[j].id != assistantId
  }

  /** The store right after the user's and the empty assistant message are added. */
  function Posted(store: Store.ChatState, conversationId: string, content: string, user: Stamp, assistant: Stamp): (r: Store.ChatState)
    ensures Store.SameIds(store.conversations, r.conversations)
    ensures r.currentId == store.currentId
    ensures forall k :: 0 <= k < |store.conversations| && store.conversations[k].id != conversationId ==>
              r.conversations[k] == store.conversations[k]
    ensures forall k :: 0 <= k < |store.conversations| && store.conversations[k].id == conversationId ==>
              |r.conversations[k].messages| == |store.conversations[k].messages| + 2
  {
    var userMessage := Message(user.id, User, content, user.at, None, None);
    var assistantMessage := Message(assistant.id, Assistant, "", assistant.at, None, None);
    Store.AddMessage(Store.AddMessage(store, conversationId, userMessage, user.at), conversationId, assistantMessage, assistant.at)
  }

  /** `handleSend(content)`. It does nothing without a current conversation or while a turn is
      loading. Otherwise the user's message and then an empty assistant message are added to the
      current conversation, the history is posted, and the reply is folded into a fresh turn. */
  function HandleSend(
    store: Store.ChatState, loading: bool, content: string,
    user: Stamp, assistant: Stamp, stamps: nat -> Stamp,
    reply: Reply, decode: string -> Option<Relay.Payload>): (r: Outcome)
    ensures r.Ignored? <==> store.current.None? || loading
    ensures r.Sent? ==> !r.turn.loading
    ensures r.Sent? ==> r.history == History(store.current.value.messages, content)
    // The turn is the reply folded into a fresh turn over the posted store, and the store it
    // leaves is the outcome's store.
    ensures r.Sent? ==>
              && r.store == r.turn.store
              && r.turn == Run(Turn(Posted(store, store.current.value.id, content, user, assistant), "", [], 0, None, true),
                               reply, decode, Session(store.current.value.id, assistant.id, stamps))
  {
    if store.current.None? || loading then Ignored
    else
      var id := store.current.value.id;
      var ss := Session(id, assistant.id, stamps);
      var start := Turn(Posted(store, id, content, user, assistant), "", [], 0, None, true);
      var t := Run(start, reply, decode, ss);
      Sent(t.store, History(store.current.value.messages, content), t)
  }

  /** The store after a send: the other conversations are as they were; the current one keeps its
      earlier messages' ids and roles, then holds the user's message and the assistant's, in that
      order, and only messages after those. The store's invariants hold throughout. */
  lemma {:induction false} SendWritesConversation(
    store: Store.ChatState, content: string,
    user: Stamp, assistant: Stamp, stamps: nat -> Stamp,
    reply: Reply, decode: string -> Option<Relay.Payload>)
    requires store.current.Some?
    ensures
      var r := HandleSend(store, false, content, user, assistant, stamps, reply, decode);
      var id := store.current.value.id;
      var cs := store.conversations;
      && r.Sent?
      && |r.store.conversations| == |cs|
      && r.store.currentId == store.currentId
      && (forall k :: 0 <= k < |cs| && cs[k].id != id ==> r.store.conversations[k] == cs[k])
      && (forall k :: 0 <= k < |cs| && cs[k].id == id ==>
            var ms := r.store.conversations[k].messages;
            var n := |cs[k].messages|;
            && r.store.conversations[k].id == id
            && |ms| >= n + 2
            && (forall j :: 0 <= j < n ==> ms[j].id == cs[k].messages[j].id && ms[j].role == cs[k].messages[j].role)
            && ms[n].id == user.id && ms[n].role == User
            && ms[n + 1].id == assistant.id && ms[n + 1].role == Assistant)
      && (Store.Consistent(store) ==> Store.Consistent(r.store))
      && (Store.DistinctIds(cs) ==> Store.DistinctIds(r.store.conversations))
  {
    var id := store.current.value.id;
    var ss := Session(id, assistant.id, stamps);
    var posted := Posted(store, id, content, user, assistant);
    var start := Turn(posted, "", [], 0, None, true);
    var r := HandleSend(store, false, content, user, assistant, stamps, reply, decode);
    if reply.Streamed? {
      ConsumeKeeps(start, ReplyFrames(reply.chunks, decode), ss);
    }
    assert Extends(posted, r.store, id);
    PostedThenExtended(store, id, content, user, assistant, r.store);
    PostedKeeps(store, id, content, user, assistant);
  }

  /** Whatever extends the posted store holds the conversation's earlier messages, then the
      user's message, then the assistant's. */
  lemma PostedThenExtended(store: Store.ChatState, id: string, content: string, user: Stamp, assistant: Stamp,
                           final: Store.ChatState)
    requires Extends(Posted(store, id, content, user, assistant), final, id)
    ensures var cs := store.conversations;
      && |final.conversations| == |cs|
      && final.currentId == store.currentId
      && (forall k :: 0 <= k < |cs| && cs[k].id != id ==> final.conversations[k] == cs[k])
      && (forall k :: 0 <= k < |cs| && cs[k].id == id ==>
            var ms := final.conversations[k].messages;
            var n := |cs[k].messages|;
            && final.conversations[k].id == id
            && |ms| >= n + 2
            && (forall j :: 0 <= j < n ==> ms[j].id == cs[k].messages[j].id && ms[j].role == cs[k].messages[j].role)
            && ms[n].id == user.id && ms[n].role == User
            && ms[n + 1].id == assistant.id && ms[n + 1].role == Assistant)
  {
    PostedAppends(store, id, content, user, assistant);
  }

  /** Posting appends the user's and then the assistant's message to conversation `id` and
      leaves the other conversations alone. */
  lemma PostedAppends(store: Store.ChatState, id: string, content: string, user: Stamp, assistant: Stamp)
    ensures var posted := Posted(store, id, content, user, assistant);
            var cs := store.conversations;
            && |posted.conversations| == |cs|
            && posted.currentId == store.currentId
            && (forall k :: 0 <= k < |cs| && cs[k].id != id ==> posted.conversations[k] == cs[k])
            && (forall k :: 0 <= k < |cs| && cs[k].id == id ==>
                  && posted.conversations[k].id == id
                  && posted.conversations[k].messages
                     == cs[k].messages + [Message(user.id, User, content, user.at, None, None),
                                          Message(assistant.id, Assistant, "", assistant.at, None, None)])
  {
    var cs := store.conversations;
    var um := Message(user.id, User, content, user.at, None, None);
    var am := Message(assistant.id, Assistant, "", assistant.at, None, None);
    var mid := Store.AddMessage(store, id, um, user.at);
    var posted := Posted(store, id, content, user, assistant);
    assert posted == Store.AddMessage(mid, id, am, assistant.at);
    forall k | 0 <= k < |cs| && cs[k].id == id
      ensures posted.conversations[k].messages == cs[k].messages + [um, am]
    {
      assert mid.conversations[k] == Store.Appended(cs[k], um, user.at);
      assert posted.conversations[k] == Store.Appended(mid.conversations[k], am, assistant.at);
      assert cs[k].messages + [um] + [am] == cs[k].messages + [um, am];
    }
  }

  /** Posting keeps the store's invariants. */
  lemma PostedKeeps(store: Store.ChatState, id: string, content: string, user: Stamp, assistant: Stamp)
    ensures Store.Consistent(store) ==> Store.Consistent(Posted(store, id, content, user, assistant))
    ensures Store.DistinctIds(store.conversations) ==>
              Store.DistinctIds(Posted(store, id, content, user, assistant).conversations)
  {
  }

  /** Right after posting, with ids that do not collide, the only message of the conversation with
      the assistant's id is the new, empty assistant message: no text, no tool calls. */
  lemma PostedAssistantEmpty(store: Store.ChatState, id: string, content: string, user: Stamp, assistant: Stamp)
    requires user.id != assistant.id
    requires FreshAssistantId(store, id, assistant.id)
    ensures Mirrors(Posted(store, id, content, user, assistant), id, assistant.id, "")
    ensures ShowsCalls(Posted(store, id, content, user, assistant), id, assistant.id, None)
  {
    var posted := Posted(store, id, content, user, assistant);
    var cs := store.conversations;
    PostedAppends(store, id, content, user, assistant);
    forall k, j |
      && 0 <= k < |posted.conversations| && posted.conversations[k].id == id
      && 0 <= j < |posted.conversations[k].messages| && posted.conversations[k].messages[j].id == assistant.id
      ensures posted.conversations[k].messages[j] == Message(assistant.id, Assistant, "", assistant.at, None, None)
    {
      assert cs[k].id == id;
      if j < |cs[k].messages| {
        assert false;
      }
    }
  }

  /** With ids that do not collide, the stored assistant message shows exactly the turn's text,
      and a completed stream's text is every content frame's text in arrival order. */
  lemma {:induction false} AssistantShowsStream(
    store: Store.ChatState, content: string,
    user: Stamp, assistant: Stamp, stamps: nat -> Stamp,
    reply: Reply, decode: string -> Option<Relay.Payload>)
    requires store.current.Some?
    requires user.id != assistant.id
    requires FreshAssistantId(store, store.current.value.id, assistant.id)
    requires forall n: nat :: stamps(n).id != assistant.id
    ensures
      var r := HandleSend(store, false, content, user, assistant, stamps, reply, decode);
      r.Sent? && Mirrors(r.store, store.current.value.id, assistant.id, r.turn.content)
  {
    var id := store.current.value.id;
    var ss := Session(id, assistant.id, stamps);
    var posted := Posted(store, id, content, user, assistant);
    var start := Turn(posted, "", [], 0, None, true);
    assert FreshStamps(ss);
    PostedAssistantEmpty(store, id, content, user, assistant);
    if reply.Streamed? {
      ConsumeKeeps(start, ReplyFrames(reply.chunks, decode), ss);
    }
  }

  /** A streamed send, read to the end or broken off, with ids that do not collide: the turn's text
      is every content frame's text in arrival order and the stored assistant message shows that
      text; the turn and the stored message both carry the last `tool_calls` array received, and
      the stored message carries none when no such frame arrived. */
  lemma {:induction false} StreamedSendShows(
    store: Store.ChatState, content: string,
    user: Stamp, assistant: Stamp, stamps: nat -> Stamp,
    reply: Reply, decode: string -> Option<Relay.Payload>)
    requires store.current.Some?
    requires reply.Streamed?
    requires user.id != assistant.id
    requires FreshAssistantId(store, store.current.value.id, assistant.id)
    requires forall n: nat :: stamps(n).id != assistant.id
    ensures
      var r := HandleSend(store, false, content, user, assistant, stamps, reply, decode);
      var frames := ReplyFrames(reply.chunks, decode);
      var id := store.current.value.id;
      && r.Sent?
      && r.turn.content == ContentText(frames)
      && Mirrors(r.store, id, assistant.id, ContentText(frames))
      && r.turn.toolCalls == (if LatestCalls(frames).Some? then LatestCalls(frames).value else [])
      && ShowsCalls(r.store, id, assistant.id, LatestCalls(frames))
  {
    var id := store.current.value.id;
    var ss := Session(id, assistant.id, stamps);
    var posted := Posted(store, id, content, user, assistant);
    var start := Turn(posted, "", [], 0, None, true);
    var frames := ReplyFrames(reply.chunks, decode);
    assert FreshStamps(ss);
    PostedAssistantEmpty(store, id, content, user, assistant);
    ConsumeKeeps(start, frames, ss);
    ContentIsConcatenation(start, frames, ss);
    ToolCallsAreLatest(start, frames, ss, None);
  }

  /** A stream read to the end leaves the turn's text equal to the text it started with followed
      by every content frame's text in arrival order. */
  lemma CompletedStreamText(start: Turn, chunks: seq<string>, decode: string -> Option<Relay.Payload>, ss: Session)
    ensures Run(start, Streamed(chunks, Complete), decode, ss).content
         == start.content + ContentText(ReplyFrames(chunks, decode))
  {
    ContentIsConcatenation(start, ReplyFrames(chunks, decode), ss);
  }
}

=== FILE: format.dfy ===
/** Relative time labels (lib/format.ts): how long ago a timestamp was, in the largest unit below
    a week, or the calendar date beyond that. Times are whole milliseconds; the clock reading and
    the local calendar are parameters. */
module Format {
  import opened Base

  const Minute: int := 60 * 1000
  const Hour: int := 60 * Minute
  const Day: int := 24 * Hour
  const Week: int := 7 * Day

  /** What `formatTime` shows. `CalendarDate` carries `getMonth() + 1` and `getDate()`. */
  datatype Label =
    | JustNow
    | MinutesAgo(minutes: nat)
    | HoursAgo(hours: nat)
    | DaysAgo(days: nat)
    | CalendarDate(month: nat, day: nat)

  /** A local calendar date: `getMonth()` (0 to 11) and `getDate()` (1 to 31). */
  datatype LocalDate = LocalDate(monthIndex: nat, dayOfMonth: nat)

  /** The label's bucket, from the most recent to the oldest. */
  function Rank(l: Label): nat {
    match l
    case JustNow => 0
    case MinutesAgo(_) => 1
    case HoursAgo(_) => 2
    case DaysAgo(_) => 3
    case CalendarDate(_, _) => 4
  }

  /** `formatTime(timestamp)` at clock reading `now`. Each count is the whole number of units
      elapsed, so it never reads 0 and never reaches the next unit's size. */
  function FormatTime(now: int, timestamp: int, localDate: int -> LocalDate): (l: Label)
    // Anything under a minute, including a timestamp in the future, is "just now".
    ensures now - timestamp < Minute <==> l == JustNow
    ensures l.MinutesAgo? ==> 1 <= l.minutes <= 59
                              && l.minutes * Minute <= now - timestamp < (l.minutes + 1) * Minute
    ensures l.HoursAgo? ==> 1 <= l.hours <= 23
                            && l.hours * Hour <= now - timestamp < (l.hours + 1) * Hour
    ensures l.DaysAgo? ==> 1 <= l.days <= 6
                           && l.days * Day <= now - timestamp < (l.days + 1) * Day
    ensures l.CalendarDate? <==> now - timestamp >= Week
    ensures l.CalendarDate? ==> l == CalendarDate(localDate(timestamp).monthIndex + 1, localDate(timestamp).dayOfMonth)
  {
    var diff := now - timestamp;
    if diff < Minute then JustNow
    else if diff < Hour then FloorWithin(diff, Minute, 60); MinutesAgo(diff / Minute)
    else if diff < Day then FloorWithin(diff, Hour, 24); HoursAgo(diff / Hour)
    else if diff < Week then FloorWithin(diff, Day, 7); DaysAgo(diff / Day)
    else
      var date := localDate(timestamp);
      CalendarDate(date.monthIndex + 1, date.dayOfMonth)
  }

  /** The whole number of units in `x`, when `x` is at least one unit and under `n` units. */
  lemma FloorWithin(x: int, unit: int, n: int)
    requires unit > 0 && unit <= x < n * unit
    ensures 1 <= x / unit < n
    ensures (x / unit) * unit <= x < (x / unit + 1) * unit
  {
    var q := x / unit;
    assert x == q * unit + x % unit;
  }

  /** An older timestamp never gets a more recent label: the bucket, and within a bucket the
      count, only grow with the elapsed time. */
  lemma OlderIsNeverNewer(now: int, t1: int, t2: int, localDate: int -> LocalDate)
    requires t2 <= t1
    ensures var l1 := FormatTime(now, t1, localDate);
            var l2 := FormatTime(now, t2, localDate);
            && Rank(l1) <= Rank(l2)
            && (l1.MinutesAgo? && l2.MinutesAgo? ==> l1.minutes <= l2.minutes)
            && (l1.HoursAgo? && l2.HoursAgo? ==> l1.hours <= l2.hours)
            && (l1.DaysAgo? && l2.DaysAgo? ==> l1.days <= l2.days)
  {
    var d1 := now - t1;
    var d2 := now - t2;
    assert d1 <= d2;
  }

  // ---- The text ----

  predicate IsDigit(c: char) {
    '0' <= c <= '9'
  }

  function Digit(d: nat): (c: char)
    requires d < 10
    ensures IsDigit(c) && c as int - '0' as int == d
  {
    ('0' as int + d) as char
  }

  function DigitValue(c: char): nat
    requires IsDigit(c)
  {
    c as int - '0' as int
  }

  /** The decimal digits of a count, as template literals print it. */
  function Decimal(n: nat): (s: string)
    ensures |s| >= 1
    ensures forall i :: 0 <= i < |s| ==> IsDigit(s[i])
    decreases n
  {
    if n < 10 then [Digit(n)] else Decimal(n / 10) + [Digit(n % 10)]
  }

  /** Reads a run of decimal digits back. */
  function DecimalValue(s: string): nat
    requires forall i :: 0 <= i < |s| ==> IsDigit(s[i])
    decreases |s|
  {
    if |s| == 0 then 0 else 10 * DecimalValue(s[..|s| - 1]) + DigitValue(s[|s| - 1])
  }

  /** The printed count reads back as the count. */
  lemma {:induction false} DecimalRoundTrip(n: nat)
    ensures DecimalValue(Decimal(n)) == n
    decreases n
  {
    if n >= 10 {
      var s := Decimal(n);
      var p := Decimal(n / 10);
      assert s == p + [Digit(n % 10)];
      assert s[..|s| - 1] == p;
      DecimalRoundTrip(n / 10);
    }
  }

  // ---- Reading labels back ----
  // lib/format.ts only prints labels. The reader below is a proof device: it inverts the
  // printer (`ReadRender`), which shows that no two labels print alike (`RenderInjective`).

  /** The length of the run of digits `s` starts with. */
  function DigitRun(s: string): (n: nat)
    ensures n <= |s|
    ensures forall i :: 0 <= i < n ==> IsDigit(s[i])
    ensures n < |s| ==> !IsDigit(s[n])
    decreases |s|
  {
    if |s| == 0 || !IsDigit(s[0]) then 0 else 1 + DigitRun(s[1..])
  }

  lemma {:induction false} DigitRunOf(d: string, x: string)
    requires forall i :: 0 <= i < |d| ==> IsDigit(d[i])
    requires x == [] || !IsDigit(x[0])
    ensures DigitRun(d + x) == |d|
    decreases |d|
  {
    if |d| > 0 {
      assert (d + x)[1..] == d[1..] + x;
      DigitRunOf(d[1..], x);
    } else {
      assert d + x == x;
    }
  }

  /** The label as the sidebar shows it. */
  function Render(l: Label): (s: string)
    ensures l == JustNow ==> s == "刚刚"
    ensures l.MinutesAgo? ==> s == Decimal(l.minutes) + " 分钟前"
    ensures l.HoursAgo? ==> s == Decimal(l.hours) + " 小时前"
    ensures l.DaysAgo? ==> s == Decimal(l.days) + " 天前"
    ensures l.CalendarDate? ==> s == Decimal(l.month) + "/" + Decimal(l.day)
  {
    match l
    case JustNow => "刚刚"
    case MinutesAgo(n) => Decimal(n) + " 分钟前"
    case HoursAgo(n) => Decimal(n) + " 小时前"
    case DaysAgo(n) => Decimal(n) + " 天前"
    case CalendarDate(m, d) => Decimal(m) + "/" + Decimal(d)
  }

  /** Reads a shown label back: a count, then the unit it counts; or month and day. */
  function ReadLabel(s: string): Option<Label> {
    if s == "刚刚" then Some(JustNow)
    else
      var i := DigitRun(s);
      if i == 0 then None else ReadAfterCount(DecimalValue(s[..i]), s[i..])
  }

  /** What follows a leading count `n`. */
  function ReadAfterCount(n: nat, rest: string): Option<Label> {
    if rest == " 分钟前" then Some(MinutesAgo(n))
    else if rest == " 小时前" then Some(HoursAgo(n))
    else if rest == " 天前" then Some(DaysAgo(n))
    else if |rest| >= 2 && rest[0] == '/' && DigitRun(rest[1..]) == |rest| - 1 then
      Some(CalendarDate(n, DecimalValue(rest[1..])))
    else None
  }

  /** A printed count followed by a text that does not start with a digit splits back into the
      two. */
  lemma ReadCount(n: nat, x: string)
    requires x == [] || !IsDigit(x[0])
    ensures var s := Decimal(n) + x;
            && s != "刚刚"
            && DigitRun(s) == |Decimal(n)| > 0
            && s[..DigitRun(s)] == Decimal(n)
            && DecimalValue(s[..DigitRun(s)]) == n
            && s[DigitRun(s)..] == x
  {
    var s := Decimal(n) + x;
    assert s[0] == Decimal(n)[0];
    DigitRunOf(Decimal(n), x);
    DecimalRoundTrip(n);
    assert s[..|Decimal(n)|] == Decimal(n);
  }

  /** So a text that starts with a printed count is read as that count and what follows it. */
  lemma ReadLabelCount(n: nat, x: string)
    requires x == [] || !IsDigit(x[0])
    ensures ReadLabel(Decimal(n) + x) == ReadAfterCount(n, x)
  {
    ReadCount(n, x);
  }

  lemma ReadCounted(n: nat, unit: string)
    requires unit == " 分钟前" || unit == " 小时前" || unit == " 天前"
    ensures ReadLabel(Decimal(n) + unit) ==
              Some(if unit == " 分钟前" then MinutesAgo(n) else if unit == " 小时前" then HoursAgo(n) else DaysAgo(n))
  {
    ReadLabelCount(n, unit);
  }

  lemma ReadDay(m: nat, d: nat)
    ensures ReadAfterCount(m, "/" + Decimal(d)) == Some(CalendarDate(m, d))
  {
    var rest := "/" + Decimal(d);
    assert rest[1..] == Decimal(d) + [];
    ReadCount(d, []);
    assert rest[0] == '/';
    assert rest != " 分钟前" && rest != " 小时前" && rest != " 天前";
  }

  lemma ReadDate(m: nat, d: nat)
    ensures ReadLabel(Decimal(m) + ("/" + Decimal(d))) == Some(CalendarDate(m, d))
  {
    ReadLabelCount(m, "/" + Decimal(d));
    ReadDay(m, d);
  }

  /** Every label's text reads back as that label: the text loses nothing. */
  lemma ReadRender(l: Label)
    ensures ReadLabel(Render(l)) == Some(l)
  {
    match l
    case JustNow =>
    case MinutesAgo(n) => ReadCounted(n, " 分钟前");
    case HoursAgo(n) => ReadCounted(n, " 小时前");
    case DaysAgo(n) => ReadCounted(n, " 天前");
    case CalendarDate(m, d) =>
      assert Render(l) == Decimal(m) + ("/" + Decimal(d));
      ReadDate(m, d);
  }

  /** So different labels never look the same. */
  lemma RenderInjective(l1: Label, l2: Label)
    requires Render(l1) == Render(l2)
    ensures l1 == l2
  {
    ReadRender(l1);
    ReadRender(l2);
  }
}

=== FILE: framer.dfy ===
/** The line framing both ends of the chat stream use (app/api/chat/route.ts:76-86 and
    components/chat-view.tsx:110-120): each decoded chunk is appended to a buffer, the buffer is
    split on "\n", the last piece is kept back as the new buffer and the other pieces are handed
    on as complete lines. Whatever is left in the buffer when the stream ends is dropped. */
module Framer {
  import opened Base

  predicate NoNewline(s: string) {
    '\n' !in s
  }

  predicate AllNoNewline(lines: seq<string>) {
    forall i :: 0 <= i < |lines| ==> NoNewline(lines[i])
  }

  /** `pieces.join("\n")`. */
  function Join(pieces: seq<string>): string {
    if |pieces| == 0 then ""
    else if |pieces| == 1 then pieces[0]
    else pieces[0] + "\n" + Join(pieces[1..])
  }

  /** The lines, each followed by its terminating "\n". */
  function Terminated(lines: seq<string>): string {
    if |lines| == 0 then "" else lines[0] + "\n" + Terminated(lines[1..])
  }

  /** The chunks of a stream, one after another. */
  function Concat(chunks: seq<string>): string {
    if |chunks| == 0 then "" else chunks[0] + Concat(chunks[1..])
  }

  /** `s.split("\n")`: the newline-free pieces between the newlines of `s`. */
  function Split(s: string): (pieces: seq<string>)
    ensures |pieces| >= 1
    ensures AllNoNewline(pieces)
    ensures Join(pieces) == s
  {
    if |s| == 0 then [""]
    else
      var rest := Split(s[1..]);
      if s[0] == '\n' then
        assert s == "\n" + s[1..];
        [""] + rest
      else
        var pieces := [[s[0]] + rest[0]] + rest[1..];
        assert pieces[1..] == rest[1..];
        assert s == [s[0]] + s[1..];
        pieces
  }

  /** The framer's output for one step: the complete lines and the new buffer. */
  datatype Framed = Framed(lines: seq<string>, rest: string)

  lemma TerminatedAppend(a: seq<string>, b: seq<string>)
    ensures Terminated(a + b) == Terminated(a) + Terminated(b)
  {
    if |a| > 0 {
      assert (a + b)[1..] == a[1..] + b;
      TerminatedAppend(a[1..], b);
    } else {
      assert a + b == b;
    }
  }

  lemma {:induction false} JoinAsTerminated(pieces: seq<string>)
    requires |pieces| >= 1
    ensures Join(pieces) == Terminated(pieces[..|pieces| - 1]) + pieces[|pieces| - 1]
    decreases |pieces|
  {
    if |pieces| > 1 {
      var tail := pieces[1..];
      var init := pieces[..|pieces| - 1];
      JoinAsTerminated(tail);
      assert init[0] == pieces[0];
      assert init[1..] == tail[..|tail| - 1];
      assert Terminated(init) == pieces[0] + "\n" + Terminated(tail[..|tail| - 1]);
      assert tail[|tail| - 1] == pieces[|pieces| - 1];
      calc {
        Join(pieces);
        pieces[0] + "\n" + Join(tail);
        pieces[0] + "\n" + (Terminated(tail[..|tail| - 1]) + tail[|tail| - 1]);
        (pieces[0] + "\n" + Terminated(tail[..|tail| - 1])) + tail[|tail| - 1];
      }
    }
  }

  /** One read of the loop: `buffer += chunk; lines = buffer.split("\n"); buffer = lines.pop() || ""`.
      The lines handed on, each with its "\n", followed by the new buffer, are exactly the old
      buffer followed by the chunk, and the new buffer holds no newline. */
  function Feed(buffer: string, chunk: string): (f: Framed)
    ensures Terminated(f.lines) + f.rest == buffer + chunk
    ensures AllNoNewline(f.lines) && NoNewline(f.rest)
  {
    var pieces := Split(buffer + chunk);
    JoinAsTerminated(pieces);
    Framed(pieces[..|pieces| - 1], pieces[|pieces| - 1])
  }

  lemma AllNoNewlineAppend(a: seq<string>, b: seq<string>)
    requires AllNoNewline(a) && AllNoNewline(b)
    ensures AllNoNewline(a + b)
  {
    forall i | 0 <= i < |a + b| ensures NoNewline((a + b)[i]) {
      if i < |a| {
        assert (a + b)[i] == a[i];
      } else {
        assert (a + b)[i] == b[i - |a|];
      }
    }
  }

  /** One read followed by the rest of the loop conserves the text. */
  lemma StepConserves(buffer: string, chunks: seq<string>, g: Framed, h: Framed)
    requires |chunks| > 0
    requires Terminated(g.lines) + g.rest == buffer + chunks[0]
    requires Terminated(h.lines) + h.rest == g.rest + Concat(chunks[1..])
    ensures Terminated(g.lines + h.lines) + h.rest == buffer + Concat(chunks)
  {
    TerminatedAppend(g.lines, h.lines);
    assert Concat(chunks) == chunks[0] + Concat(chunks[1..]);
    Regroup(Terminated(g.lines), Terminated(h.lines), g.rest, h.rest, buffer, chunks[0], Concat(chunks[1..]));
  }

  /** Text conservation across two steps, as plain string algebra. */
  lemma Regroup(tg: string, th: string, gr: string, hr: string, x: string, c0: string, cs: string)
    requires tg + gr == x + c0
    requires th + hr == gr + cs
    ensures (tg + th) + hr == x + (c0 + cs)
  {
    calc {
      (tg + th) + hr;
      tg + (th + hr);
      tg + (gr + cs);
      (tg + gr) + cs;
      (x + c0) + cs;
    }
  }

  /** The whole read loop over a stream's chunks, starting from `buffer`. */
  function Frame(buffer: string, chunks: seq<string>): (f: Framed)
    requires NoNewline(buffer)
    ensures Terminated(f.lines) + f.rest == buffer + Concat(chunks)
    ensures AllNoNewline(f.lines) && NoNewline(f.rest)
    decreases |chunks|
  {
    if |chunks| == 0 then Framed([], buffer)
    else
      var g := Feed(buffer, chunks[0]);
      var h := Frame(g.rest, chunks[1..]);
      var lines := g.lines + h.lines;
      AllNoNewlineAppend(g.lines, h.lines);
      StepConserves(buffer, chunks, g, h);
      Framed(lines, h.rest)
  }

  /** The lines a stream yields: the framing loop run from an empty buffer. */
  function StreamLines(chunks: seq<string>): (lines: seq<string>)
    // The complete lines of the text in order; only an unterminated tail is held back.
    ensures AllNoNewline(lines)
    ensures Terminated(lines) <= Concat(chunks)
    ensures NoNewline(Concat(chunks)[|Terminated(lines)|..])
  {
    var f := Frame("", chunks);
    assert "" + Concat(chunks) == Concat(chunks);
    f.lines
  }

  lemma NewlineSplitUnique(p: string, u: string, q: string, v: string)
    requires NoNewline(p) && NoNewline(q)
    requires p + "\n" + u == q + "\n" + v
    ensures p == q && u == v
  {
    var s := p + "\n" + u;
    FirstNewlineAt(p, u);
    FirstNewlineAt(q, v);
    assert |p| == |q|;
    assert p == s[..|p|] == q;
    assert u == s[|p| + 1..] == v;
  }

  lemma FirstNewlineAt(p: string, u: string)
    requires NoNewline(p)
    ensures (p + "\n" + u)[|p|] == '\n'
    ensures forall k :: 0 <= k < |p| ==> (p + "\n" + u)[k] != '\n'
  {
    forall k | 0 <= k < |p| ensures (p + "\n" + u)[k] != '\n' {
      assert (p + "\n" + u)[k] == p[k];
    }
  }

  lemma TerminatedHasNewline(b: seq<string>, y: string)
    requires |b| > 0 && NoNewline(b[0])
    ensures '\n' in Terminated(b) + y
  {
    assert (Terminated(b) + y)[|b[0]|] == '\n';
  }

  /** A text splits in only one way into newline-free terminated lines and a newline-free rest. */
  lemma {:induction false} TerminatedUnique(a: seq<string>, x: string, b: seq<string>, y: string)
    requires AllNoNewline(a) && AllNoNewline(b) && NoNewline(x) && NoNewline(y)
    requires Terminated(a) + x == Terminated(b) + y
    ensures a == b && x == y
  {
    if |a| == 0 && |b| == 0 {
      assert x == Terminated(a) + x;
      assert y == Terminated(b) + y;
    } else if |a| == 0 {
      TerminatedHasNewline(b, y);
      assert false;
    } else if |b| == 0 {
      TerminatedHasNewline(a, x);
      assert false;
    } else {
      assert Terminated(a) + x == a[0] + "\n" + (Terminated(a[1..]) + x);
      assert Terminated(b) + y == b[0] + "\n" + (Terminated(b[1..]) + y);
      NewlineSplitUnique(a[0], Terminated(a[1..]) + x, b[0], Terminated(b[1..]) + y);
      TerminatedUnique(a[1..], x, b[1..], y);
      assert a == [a[0]] + a[1..];
      assert b == [b[0]] + b[1..];
    }
  }

  /** Framing is independent of chunk boundaries: the lines and the final buffer depend only on
      the concatenated text, and they are what a single read of the whole text would give. */
  lemma {:induction false} FrameDependsOnlyOnText(chunks: seq<string>)
    ensures Frame("", chunks) == Feed("", Concat(chunks))
  {
    var f := Frame("", chunks);
    var g := Feed("", Concat(chunks));
    assert Terminated(f.lines) + f.rest == Terminated(g.lines) + g.rest;
    TerminatedUnique(f.lines, f.rest, g.lines, g.rest);
  }

  /** Two ways of cutting the same text into chunks yield the same lines. */
  lemma ChunkBoundariesDoNotMatter(c1: seq<string>, c2: seq<string>)
    requires Concat(c1) == Concat(c2)
    ensures StreamLines(c1) == StreamLines(c2)
  {
    FrameDependsOnlyOnText(c1);
    FrameDependsOnlyOnText(c2);
  }

  lemma ConcatSnoc(chunks: seq<string>, tail: string)
    ensures Concat(chunks + [tail]) == Concat(chunks) + tail
  {
    if |chunks| > 0 {
      assert (chunks + [tail])[1..] == chunks[1..] + [tail];
      ConcatSnoc(chunks[1..], tail);
    } else {
      assert chunks + [tail] == [tail];
    }
  }

  lemma FeedUnterminatedTail(x: string, tail: string)
    requires NoNewline(tail)
    ensures Feed("", x + tail).lines == Feed("", x).lines
  {
    var f := Feed("", x);
    var g := Feed("", x + tail);
    assert NoNewline(f.rest + tail);
    calc {
      Terminated(g.lines) + g.rest;
      "" + (x + tail);
      ("" + x) + tail;
      (Terminated(f.lines) + f.rest) + tail;
      Terminated(f.lines) + (f.rest + tail);
    }
    TerminatedUnique(g.lines, g.rest, f.lines, f.rest + tail);
  }

  /** A final fragment without a newline is never handed on as a line. */
  lemma UnterminatedTailDropped(chunks: seq<string>, tail: string)
    requires NoNewline(tail)
    ensures StreamLines(chunks + [tail]) == StreamLines(chunks)
  {
    ConcatSnoc(chunks, tail);
    FrameDependsOnlyOnText(chunks);
    FrameDependsOnlyOnText(chunks + [tail]);
    FeedUnterminatedTail(Concat(chunks), tail);
  }

  /** The payload of an SSE data line: for a line starting with "data: ", the rest of the line
      trimmed of whitespace (`line.slice(6).trim()`); other lines carry none. */
  function DataPayload(line: string): (r: Option<string>)
    ensures r.Some? <==> StartsWith(line, "data: ")
    ensures r.Some? ==> r.value == Trim(line[6..])
  {
    if StartsWith(line, "data: ") then Some(Trim(line[6..])) else None
  }

  /** The upstream terminal marker (`data: [DONE]`). */
  const DoneMarker: string := "[DONE]"
}

=== FILE: relay.dfy ===
/** The streaming relay behind `POST /api/chat` (app/api/chat/route.ts:25-243).
    It calls the provider once with the browser's history (stream A), forwards content deltas as
    they arrive, accumulates tool-call fragments, and on stream A's `[DONE]` runs one tool round:
    it sends the calls and their results downstream, calls the provider again with the history
    extended by the round (stream B), forwards stream B's content and finally sends `[DONE]`.
    The I/O is lifted out: `upstream` answers each fetch with the provider's response, `parse`
    stands for `JSON.parse(data).choices?.[0]?.delta` (a line that does not parse is `None`), and
    `execute` stands for `executeTool` followed by the text it resolves to. */
module Relay {
  import opened Base
  import opened Types
  import Framer
  import Accumulator

  /** What the relay reads from one parsed payload: `delta.content` ("" when absent or falsy) and
      the entries of `delta.tool_calls` (none when absent). */
  datatype Chunk = Chunk(content: string, toolDeltas: seq<Accumulator.Delta>)

  /** How reading a response body ends: the reader reports `done`, or `read()` rejects. */
  datatype Ending = Finished | Broken(reason: string)

  /** The outcome of one `fetch` to the provider. */
  datatype Upstream =
    | Rejected(reason: string)                 // fetch threw; `reason` is `String(error)`
    | NotOk(body: string)                      // `!response.ok`; `body` is `response.text()`
    | NoBody                                   // `response.body` is missing
    | Body(chunks: seq<string>, ending: Ending) // the decoded chunks of the body

  /** A chat-completions request. `offersTools` says whether `tools` and `tool_choice: "auto"`
      are present. */
  datatype Request = Request(
    model: string,
    messages: seq<Option<WireMessage>>,
    offersTools: bool,
    stream: bool,
    maxTokens: int,
    temperature: real)

  /** The JSON objects the relay sends downstream, each as one `data: ...` frame. */
  datatype Payload =
    | Content(text: string)          // {type: "content", content}
    | Calls(calls: CallList)         // {type: "tool_calls", tool_calls}
    | Results(results: ResultList)   // {type: "tool_results", results}
    | Error(message: string)         // {error}

  /** A downstream frame: a JSON payload or the literal terminal marker `[DONE]`. */
  datatype Event = Data(payload: Payload) | Done

  /** Everything the stream body depends on besides the provider's bytes. `upstream(n, req)` is
      the answer to the relay's fetch number `n` (0 for the first request, then one per tool
      round), so two follow-ups with the same body are still independent fetches. */
  datatype Env = Env(
    messages: seq<WireMessage>,
    upstream: (nat, Request) -> Upstream,
    parse: string -> Option<Chunk>,
    execute: (string, string) -> string)

  const Model: string := "Qwen/Qwen2.5-7B-Instruct"

  /** The first request: the browser's history with the tool definitions offered. */
  function InitialRequest(messages: seq<WireMessage>): (r: Request)
    ensures r.offersTools && r.stream
    ensures |r.messages| == |messages|
    ensures forall i :: 0 <= i < |messages| ==> r.messages[i] == Some(messages[i])
  {
    Request(Model, seq(|messages|, i requires 0 <= i < |messages| => Some(messages[i])), true, true, 2000, 0.7)
  }

  // ---- The tool round ----

  /** The result for one call: role "tool", the call's id, and the executor's text. */
  function ResultFor(call: ToolCall, execute: (string, string) -> string): ToolResult {
    ToolResult(Tool, call.id, execute(call.name, call.arguments))
  }

  /** `Promise.all(toolCalls.map(...))`: every accumulated call is executed, with no
      deduplication; a hole in the call array stays a hole in the results. */
  function ToolRound(calls: CallList, execute: (string, string) -> string): (results: ResultList)
    ensures |results| == |calls|
    ensures forall i :: 0 <= i < |calls| ==> (results[i].Some? <==> calls[i].Some?)
    ensures forall i :: 0 <= i < |calls| && calls[i].Some? ==>
              && results[i].value.role == Tool
              && results[i].value.toolCallId == calls[i].value.id
              && results[i].value.content == execute(calls[i].value.name, calls[i].value.arguments)
    decreases |calls|
  {
    if |calls| == 0 then []
    else
      var head := match calls[0] case None => None case Some(c) => Some(ResultFor(c, execute));
      [head] + ToolRound(calls[1..], execute)
  }

  /** A tool result as a message of the follow-up history. */
  function ResultMessage(r: ToolResult): WireMessage {
    WireMessage(r.role, r.content, None, Some(r.toolCallId))
  }

  /** The follow-up history: the original messages, one assistant message with empty content
      carrying the calls, then the results in order (a hole stays `undefined`). */
  function FollowUpMessages(messages: seq<WireMessage>, calls: CallList, results: ResultList)
    : (r: seq<Option<WireMessage>>)
    ensures |r| == |messages| + 1 + |results|
    ensures forall i :: 0 <= i < |messages| ==> r[i] == Some(messages[i])
    ensures r[|messages|] == Some(WireMessage(Assistant, "", Some(calls), None))
    ensures forall i :: 0 <= i < |results| ==>
              r[|messages| + 1 + i] == (if results[i].Some? then Some(ResultMessage(results[i].value)) else None)
  {
    seq(|messages|, i requires 0 <= i < |messages| => Some(messages[i]))
    + [Some(WireMessage(Assistant, "", Some(calls), None))]
    + seq(|results|, i requires 0 <= i < |results| =>
            if results[i].Some? then Some(ResultMessage(results[i].value)) else None)
  }

  /** The second request: the extended history, with neither `tools` nor `tool_choice`. */
  function FollowUpRequest(messages: seq<WireMessage>, calls: CallList, results: ResultList): (r: Request)
    ensures !r.offersTools && r.stream
    ensures r.messages == FollowUpMessages(messages, calls, results)
  {
    Request(Model, FollowUpMessages(messages, calls, results), false, true, 2000, 0.7)
  }

  // ---- Stream B ----

  /** The content event a parsed payload forwards: one, with the exact text, when the delta
      carries non-empty content. */
  function Forward(chunk: Option<Chunk>): (events: seq<Event>)
    ensures |events| <= 1
    ensures |events| == 1 <==> chunk.Some? && chunk.value.content != ""
    ensures |events| == 1 ==> events[0] == Data(Content(chunk.value.content))
  {
    if chunk.Some? && chunk.value.content != "" then [Data(Content(chunk.value.content))] else []
  }

  /** One line of stream B (route.ts:163-181): `[DONE]` and tool-call fragments are ignored and
      only content is forwarded. */
  function StepB(parse: string -> Option<Chunk>, line: string): (events: seq<Event>)
    ensures Framer.DataPayload(line).None? ==> events == []
    ensures Framer.DataPayload(line) == Some(Framer.DoneMarker) ==> events == []
    ensures Framer.DataPayload(line).Some? && Framer.DataPayload(line) != Some(Framer.DoneMarker) ==>
              events == Forward(parse(Framer.DataPayload(line).value))
  {
    match Framer.DataPayload(line)
    case None => []
    case Some(data) => if data == Framer.DoneMarker then [] else Forward(parse(data))
  }

  /** Every event forwarded from stream B. */
  function RelayB(parse: string -> Option<Chunk>, lines: seq<string>): (events: seq<Event>)
    ensures forall k :: 0 <= k < |events| ==>
              events[k].Data? && events[k].payload.Content? && events[k].payload.text != ""
    decreases |lines|
  {
    if |lines| == 0 then [] else StepB(parse, lines[0]) + RelayB(parse, lines[1..])
  }

  // ---- Stream A ----

  /** The relay's progress through stream A: events sent so far, the tool-call slot array, the
      number of fetches made so far, and whether the stream has been closed by a failure inside
      the tool round. */
  datatype Progress = Progress(events: seq<Event>, slots: CallList, fetches: nat, closed: bool)

  /** The events that follow a round's calls and results, and whether they close the stream. */
  datatype Tail = Tail(events: seq<Event>, closed: bool)

  /** What follows the calls and results of a round, by how the follow-up request went
      (route.ts:130-187): stream B's content and `[DONE]`. A follow-up that is not OK or has no
      body is skipped silently; one that throws, or whose read throws, reaches the outer `catch`,
      which sends an error and closes the stream without `[DONE]`. */
  function FollowUpTail(parse: string -> Option<Chunk>, answer: Upstream): (p: Tail)
    ensures p.closed <==> answer.Rejected? || (answer.Body? && answer.ending.Broken?)
    ensures !p.closed ==> |p.events| > 0 && p.events[|p.events| - 1] == Done
    ensures p.closed ==> |p.events| > 0 && p.events[|p.events| - 1].Data? && p.events[|p.events| - 1].payload.Error?
    ensures answer.Body? ==> p.events[..|p.events| - 1] == RelayB(parse, Framer.StreamLines(answer.chunks))
    ensures !answer.Body? ==> |p.events| == 1
  {
    match answer
    case Rejected(reason) => Tail([Data(Error(reason))], true)
    case NotOk(_) => Tail([Done], false)
    case NoBody => Tail([Done], false)
    case Body(chunks, ending) =>
      var forwarded := RelayB(parse, Framer.StreamLines(chunks));
      var last := match ending case Finished => Done case Broken(reason) => Data(Error(reason));
      assert (forwarded + [last])[..|forwarded|] == forwarded;
      Tail(forwarded + [last], ending.Broken?)
  }

  /** The follow-up request of the round over `slots`. */
  function FollowUpFor(env: Env, slots: CallList): Request {
    FollowUpRequest(env.messages, slots, ToolRound(slots, env.execute))
  }

  /** Stream A's `[DONE]` (route.ts:87-188). Without accumulated calls only `[DONE]` is sent.
      Otherwise the calls, then their results, then what the follow-up fetch, number `n`, yields.
      The slot array is not cleared. */
  function OnDone(env: Env, slots: CallList, n: nat): (p: Progress)
    ensures p.slots == slots
    ensures |slots| == 0 ==> p == Progress([Done], slots, n, false)
    ensures |slots| > 0 ==>
              var tail := FollowUpTail(env.parse, env.upstream(n, FollowUpFor(env, slots)));
              && p.events == [Data(Calls(slots)), Data(Results(ToolRound(slots, env.execute)))] + tail.events
              && p.fetches == n + 1
              && p.closed == tail.closed
  {
    if |slots| == 0 then Progress([Done], slots, n, false)
    else
      var results := ToolRound(slots, env.execute);
      var tail := FollowUpTail(env.parse, env.upstream(n, FollowUpFor(env, slots)));
      Progress([Data(Calls(slots)), Data(Results(results))] + tail.events, slots, n + 1, tail.closed)
  }

  /** The payload a line of stream A hands to `JSON.parse`: a data line other than `[DONE]`. */
  function ParsedLine(parse: string -> Option<Chunk>, line: string): Option<Chunk> {
    match Framer.DataPayload(line)
    case None => None
    case Some(data) => if data == Framer.DoneMarker then None else parse(data)
  }

  predicate IsDoneLine(line: string) {
    Framer.DataPayload(line) == Some(Framer.DoneMarker)
  }

  /** One line of stream A. Lines that are not data lines and payloads that do not parse change
      nothing; a parsed payload first feeds its tool-call fragments to the accumulator and then
      forwards its content. */
  function StepA(env: Env, slots: CallList, n: nat, line: string): (p: Progress)
    ensures IsDoneLine(line) ==> p == OnDone(env, slots, n)
    ensures !IsDoneLine(line) && ParsedLine(env.parse, line).None? ==> p == Progress([], slots, n, false)
    ensures !IsDoneLine(line) && ParsedLine(env.parse, line).Some? ==>
              var chunk := ParsedLine(env.parse, line).value;
              && p.slots == Accumulator.ApplyAll(slots, chunk.toolDeltas)
              && p.events == Forward(Some(chunk))
              && p.fetches == n
              && !p.closed
  {
    if IsDoneLine(line) then OnDone(env, slots, n)
    else
      match ParsedLine(env.parse, line)
      case None => Progress([], slots, n, false)
      case Some(chunk) => Progress(Forward(Some(chunk)), Accumulator.ApplyAll(slots, chunk.toolDeltas), n, false)
  }

  /** Stream A's lines in order, stopping at the first failure that closes the stream. */
  function RunA(env: Env, slots: CallList, n: nat, lines: seq<string>): (p: Progress)
    // Fetch numbers only go up, and by at most one per line: one per marker that starts a round.
    ensures n <= p.fetches <= n + |lines|
    decreases |lines|
  {
    if |lines| == 0 then Progress([], slots, n, false)
    else
      var p := StepA(env, slots, n, lines[0]);
      if p.closed then p
      else
        var q := RunA(env, p.slots, p.fetches, lines[1..]);
        Progress(p.events + q.events, q.slots, q.fetches, q.closed)
  }

  /** The whole stream body: what the browser receives, frame by frame. */
  function StreamBody(env: Env): (events: seq<Event>)
    // A failed first call yields exactly one event, an error, and no `[DONE]`.
    ensures !env.upstream(0, InitialRequest(env.messages)).Body? ==> |events| == 1 && events[0].Data? && events[0].payload.Error?
    ensures env.upstream(0, InitialRequest(env.messages)).NotOk? ==>
              events == [Data(Error("API Error: " + env.upstream(0, InitialRequest(env.messages)).body))]
    ensures env.upstream(0, InitialRequest(env.messages)).NoBody? ==> events == [Data(Error("No response body"))]
  {
    match env.upstream(0, InitialRequest(env.messages))
    case Rejected(reason) => [Data(Error(reason))]
    case NotOk(body) => [Data(Error("API Error: " + body))]
    case NoBody => [Data(Error("No response body"))]
    case Body(chunks, ending) =>
      var p := RunA(env, [], 1, Framer.StreamLines(chunks));
      if p.closed then p.events
      else
        match ending
        case Finished => p.events
        case Broken(reason) => p.events + [Data(Error(reason))]
  }
}

=== FILE: relay_laws.dfy ===
/** Properties of the relay's event stream (app/api/chat/route.ts:76-234) over whole line sequences. */
module RelayLaws {
  import opened Base
  import opened Types
  import Framer
  import Accumulator
  import opened Relay

  /** No line of stream A is its terminal marker. */
  predicate NoDone(lines: seq<string>) {
    forall i :: 0 <= i < |lines| ==> !IsDoneLine(lines[i])
  }

  /** The content events the lines' payloads carry, in line order. */
  function Contents(parse: string -> Option<Chunk>, lines: seq<string>): seq<Event>
    decreases |lines|
  {
    if |lines| == 0 then [] else Forward(ParsedLine(parse, lines[0])) + Contents(parse, lines[1..])
  }

  /** The tool-call fragments the lines' payloads carry, in line order. */
  function Deltas(parse: string -> Option<Chunk>, lines: seq<string>): seq<Accumulator.Delta>
    decreases |lines|
  {
    if |lines| == 0 then []
    else
      var here := match ParsedLine(parse, lines[0]) case None => [] case Some(c) => c.toolDeltas;
      here + Deltas(parse, lines[1..])
  }

  /** Stream B forwards exactly what stream A would forward for the same lines: every parsed
      content delta, in line order; `[DONE]` and unparsed lines yield nothing. */
  lemma {:induction false} RelayBIsContents(parse: string -> Option<Chunk>, lines: seq<string>)
    ensures RelayB(parse, lines) == Contents(parse, lines)
    decreases |lines|
  {
    if |lines| > 0 {
      assert StepB(parse, lines[0]) == Forward(ParsedLine(parse, lines[0]));
      RelayBIsContents(parse, lines[1..]);
    }
  }

  /** The number of `[DONE]` frames among the events. */
  function DoneCount(events: seq<Event>): nat
    decreases |events|
  {
    if |events| == 0 then 0 else (if events[0].Done? then 1 else 0) + DoneCount(events[1..])
  }

  lemma DoneCountAppend(a: seq<Event>, b: seq<Event>)
    ensures DoneCount(a + b) == DoneCount(a) + DoneCount(b)
    decreases |a|
  {
    if |a| > 0 {
      assert (a + b)[1..] == a[1..] + b;
      DoneCountAppend(a[1..], b);
    } else {
      assert a + b == b;
    }
  }

  lemma NoDoneAmongContent(events: seq<Event>)
    requires forall k :: 0 <= k < |events| ==> events[k].Data?
    ensures DoneCount(events) == 0
    decreases |events|
  {
    if |events| > 0 {
      NoDoneAmongContent(events[1..]);
    }
  }

  /** Running stream A over two consecutive stretches of lines is running it over their
      concatenation, unless the first stretch already closed the stream. */
  lemma {:induction false} RunAppend(env: Env, slots: CallList, n: nat, a: seq<string>, b: seq<string>)
    ensures var p := RunA(env, slots, n, a);
            RunA(env, slots, n, a + b)
            == if p.closed then p
               else var q := RunA(env, p.slots, p.fetches, b); Progress(p.events + q.events, q.slots, q.fetches, q.closed)
    decreases |a|
  {
    if |a| == 0 {
      assert a + b == b;
    } else {
      assert (a + b)[0] == a[0];
      assert (a + b)[1..] == a[1..] + b;
      var s := StepA(env, slots, n, a[0]);
      if !s.closed {
        var p1 := RunA(env, s.slots, s.fetches, a[1..]);
        RunAppend(env, s.slots, s.fetches, a[1..], b);
        StepThenAppend(s.events, p1, RunA(env, p1.slots, p1.fetches, b), RunA(env, s.slots, s.fetches, a[1..] + b));
      }
    }
  }

  /** The inductive step of `RunAppend`, as algebra on progress values: `s` is the first line's
      events, `p1` the rest of the first stretch, `q` the second stretch after it, `r` the rest of
      both stretches together. */
  lemma StepThenAppend(s: seq<Event>, p1: Progress, q: Progress, r: Progress)
    requires r == if p1.closed then p1 else Progress(p1.events + q.events, q.slots, q.fetches, q.closed)
    ensures var p := Progress(s + p1.events, p1.slots, p1.fetches, p1.closed);
            Progress(s + r.events, r.slots, r.fetches, r.closed)
            == if p.closed then p else Progress(p.events + q.events, q.slots, q.fetches, q.closed)
  {
    if !p1.closed {
      assert s + (p1.events + q.events) == (s + p1.events) + q.events;
    }
  }

  /** Before the terminal marker, stream A forwards exactly the payloads' content texts in line
      order and leaves the slot array holding every tool-call fragment of those lines, in order. */
  lemma {:induction false} RunWithoutDone(env: Env, slots: CallList, n: nat, lines: seq<string>)
    requires NoDone(lines)
    ensures RunA(env, slots, n, lines)
         == Progress(Contents(env.parse, lines),
                     Accumulator.ApplyAll(slots, Deltas(env.parse, lines)), n, false)
    decreases |lines|
  {
    if |lines| == 0 {
    } else {
      var s := StepA(env, slots, n, lines[0]);
      var here := match ParsedLine(env.parse, lines[0]) case None => [] case Some(c) => c.toolDeltas;
      assert s.slots == Accumulator.ApplyAll(slots, here);
      assert NoDone(lines[1..]);
      RunWithoutDone(env, s.slots, n, lines[1..]);
      Accumulator.ApplyAllAppend(slots, here, Deltas(env.parse, lines[1..]));
    }
  }

  lemma SkipUnparsedLine(env: Env, slots: CallList, n: nat, junk: string, b: seq<string>)
    requires !IsDoneLine(junk) && ParsedLine(env.parse, junk).None?
    ensures RunA(env, slots, n, [junk] + b) == RunA(env, slots, n, b)
  {
    var lines := [junk] + b;
    assert lines[0] == junk && lines[1..] == b;
    var p := StepA(env, slots, n, junk);
    assert p == Progress([], slots, n, false);
    var q := RunA(env, slots, n, b);
    assert RunA(env, slots, n, lines) == Progress([] + q.events, q.slots, q.fetches, q.closed);
  }

  /** A line that is neither a data line that parses nor the terminal marker is invisible:
      removing it changes neither the events nor the slot array. */
  lemma UnparsedLineInvisible(env: Env, slots: CallList, n: nat, a: seq<string>, junk: string, b: seq<string>)
    requires !IsDoneLine(junk) && ParsedLine(env.parse, junk).None?
    ensures RunA(env, slots, n, a + [junk] + b) == RunA(env, slots, n, a + b)
  {
    assert a + [junk] + b == a + ([junk] + b);
    RunAppend(env, slots, n, a, [junk] + b);
    RunAppend(env, slots, n, a, b);
    var p := RunA(env, slots, n, a);
    if !p.closed {
      SkipUnparsedLine(env, p.slots, p.fetches, junk, b);
    }
  }

  /** The slot array survives `[DONE]`: a second marker in stream A sends `[DONE]` again when
      no call was accumulated, and otherwise runs the round over the same calls again, with the
      next fetch number: the same `tool_calls` and `tool_results` frames, then whatever that
      second, independent follow-up fetch yields (`OnDone`'s contract). */
  lemma RepeatedDoneRepeatsRound(env: Env, slots: CallList, n: nat, line: string)
    requires IsDoneLine(line) && !OnDone(env, slots, n).closed
    ensures |slots| == 0 ==> RunA(env, slots, n, [line, line]).events == [Done, Done]
    ensures |slots| > 0 ==>
              RunA(env, slots, n, [line, line]).events == OnDone(env, slots, n).events + OnDone(env, slots, n + 1).events
  {
    TwoMarkers(env, slots, n, line);
    if |slots| == 0 {
      assert OnDone(env, slots, n).events == [Done];
    }
  }

  /** Two markers in a row: the first round, then the round again from the fetch number after it. */
  lemma TwoMarkers(env: Env, slots: CallList, n: nat, line: string)
    requires IsDoneLine(line) && !OnDone(env, slots, n).closed
    ensures var once := OnDone(env, slots, n);
            var twice := OnDone(env, slots, once.fetches);
            RunA(env, slots, n, [line, line]) == Progress(once.events + twice.events, slots, twice.fetches, twice.closed)
  {
    var once := OnDone(env, slots, n);
    assert [line, line][0] == line && [line, line][1..] == [line];
    assert [line][0] == line && [line][1..] == [];
    var twice := OnDone(env, slots, once.fetches);
    assert RunA(env, slots, once.fetches, [line]) == Progress(twice.events + [], slots, twice.fetches, twice.closed);
  }

  /** A session whose stream A holds a single `[DONE]`: the content forwarded before it, the
      round's events (for no accumulated calls just `[DONE]`), then the content of the lines after
      it, unless the round closed the stream. A well-formed body ends `data: [DONE]` followed by a
      blank line, so `post` is usually `[""]`. */
  lemma {:induction false} SingleDoneSession(env: Env, chunks: seq<string>, pre: seq<string>, done: string, post: seq<string>)
    requires env.upstream(0, InitialRequest(env.messages)) == Body(chunks, Finished)
    requires Framer.StreamLines(chunks) == pre + [done] + post
    requires NoDone(pre) && IsDoneLine(done) && NoDone(post)
    ensures var slots := Accumulator.ApplyAll([], Deltas(env.parse, pre));
            var round := OnDone(env, slots, 1);
            StreamBody(env) == Contents(env.parse, pre) + round.events + (if round.closed then [] else Contents(env.parse, post))
  {
    FinishedBody(env, chunks);
    DoneBetween(env, [], 1, pre, done, post);
  }

  /** A first response read to the end: the body is stream A's events, from empty slots and with
      one fetch made. */
  lemma FinishedBody(env: Env, chunks: seq<string>)
    requires env.upstream(0, InitialRequest(env.messages)) == Body(chunks, Finished)
    ensures StreamBody(env) == RunA(env, [], 1, Framer.StreamLines(chunks)).events
  {
  }

  /** A first response whose read breaks: stream A's events over the lines framed so far; unless a
      failed round already closed the stream, one error frame with the failure's text follows
      them as the last frame, and it adds no `[DONE]`. */
  lemma BrokenBody(env: Env, chunks: seq<string>, reason: string)
    requires env.upstream(0, InitialRequest(env.messages)) == Body(chunks, Broken(reason))
    ensures var p := RunA(env, [], 1, Framer.StreamLines(chunks));
            && (p.closed ==> StreamBody(env) == p.events)
            && (!p.closed ==> |StreamBody(env)| == |p.events| + 1
                              && StreamBody(env)[..|p.events|] == p.events
                              && StreamBody(env)[|p.events|] == Data(Error(reason)))
            && DoneCount(StreamBody(env)) == DoneCount(p.events)
  {
    var p := RunA(env, [], 1, Framer.StreamLines(chunks));
    if !p.closed {
      assert StreamBody(env) == p.events + [Data(Error(reason))];
      DoneCountAppend(p.events, [Data(Error(reason))]);
      assert DoneCount([Data(Error(reason))]) == 0;
    }
  }

  /** A first response that breaks before its `[DONE]` arrived: the content of the lines read so
      far, then the error, and the browser never sees `[DONE]`. */
  lemma BrokenBeforeDone(env: Env, chunks: seq<string>, reason: string)
    requires env.upstream(0, InitialRequest(env.messages)) == Body(chunks, Broken(reason))
    requires NoDone(Framer.StreamLines(chunks))
    ensures StreamBody(env) == Contents(env.parse, Framer.StreamLines(chunks)) + [Data(Error(reason))]
    ensures DoneCount(StreamBody(env)) == 0
  {
    var lines := Framer.StreamLines(chunks);
    RunWithoutDone(env, [], 1, lines);
    BrokenBody(env, chunks, reason);
    ContentsAreData(env.parse, lines);
    NoDoneAmongContent(Contents(env.parse, lines));
  }

  /** Lines without the marker, then the marker: their content, then the round over their calls. */
  lemma DoneAfter(env: Env, slots: CallList, n: nat, pre: seq<string>, done: string)
    requires NoDone(pre) && IsDoneLine(done)
    ensures var round := OnDone(env, Accumulator.ApplyAll(slots, Deltas(env.parse, pre)), n);
            RunA(env, slots, n, pre + [done])
            == Progress(Contents(env.parse, pre) + round.events, round.slots, round.fetches, round.closed)
  {
    RunWithoutDone(env, slots, n, pre);
    RunAppend(env, slots, n, pre, [done]);
    var round := OnDone(env, Accumulator.ApplyAll(slots, Deltas(env.parse, pre)), n);
    assert [done][1..] == [];
    assert round.events + [] == round.events;
  }

  /** Marker-free lines, the marker, then more marker-free lines: the first lines' content, the
      round, then the later lines' content unless the round closed the stream. */
  lemma DoneBetween(env: Env, slots: CallList, n: nat, pre: seq<string>, done: string, post: seq<string>)
    requires NoDone(pre) && IsDoneLine(done) && NoDone(post)
    ensures var round := OnDone(env, Accumulator.ApplyAll(slots, Deltas(env.parse, pre)), n);
            RunA(env, slots, n, pre + [done] + post).events
            == Contents(env.parse, pre) + round.events + (if round.closed then [] else Contents(env.parse, post))
  {
    var round := OnDone(env, Accumulator.ApplyAll(slots, Deltas(env.parse, pre)), n);
    DoneAfter(env, slots, n, pre, done);
    RunAppend(env, slots, n, pre + [done], post);
    RunWithoutDone(env, round.slots, round.fetches, post);
  }

  /** Scenario: stream A carries content only. The browser gets the content events before the
      marker, `[DONE]`, then the content of any lines after it; the follow-up is never requested. */
  lemma ContentOnlySession(env: Env, chunks: seq<string>, pre: seq<string>, done: string, post: seq<string>)
    requires env.upstream(0, InitialRequest(env.messages)) == Body(chunks, Finished)
    requires Framer.StreamLines(chunks) == pre + [done] + post
    requires NoDone(pre) && IsDoneLine(done) && NoDone(post)
    requires Deltas(env.parse, pre) == []
    ensures StreamBody(env) == Contents(env.parse, pre) + [Done] + Contents(env.parse, post)
  {
    SingleDoneSession(env, chunks, pre, done, post);
  }

  /** Scenario: stream A accumulates calls and the follow-up answers. The browser gets stream A's
      content, the calls, their results, stream B's content, `[DONE]`, then the content of stream
      A's lines after its marker (`ToolRoundSessionDoneOnce` shows the `[DONE]` to be the only one). */
  lemma ToolRoundSession(env: Env, chunks: seq<string>, pre: seq<string>, done: string, post: seq<string>, chunksB: seq<string>)
    requires env.upstream(0, InitialRequest(env.messages)) == Body(chunks, Finished)
    requires Framer.StreamLines(chunks) == pre + [done] + post
    requires NoDone(pre) && IsDoneLine(done) && NoDone(post)
    requires var slots := Accumulator.ApplyAll([], Deltas(env.parse, pre));
             && |slots| > 0
             && env.upstream(1, FollowUpFor(env, slots)) == Body(chunksB, Finished)
    ensures var slots := Accumulator.ApplyAll([], Deltas(env.parse, pre));
            StreamBody(env) == Contents(env.parse, pre)
                             + [Data(Calls(slots)), Data(Results(ToolRound(slots, env.execute)))]
                             + RelayB(env.parse, Framer.StreamLines(chunksB))
                             + [Done]
                             + Contents(env.parse, post)
  {
    SingleDoneSession(env, chunks, pre, done, post);
    var slots := Accumulator.ApplyAll([], Deltas(env.parse, pre));
    AnsweredRound(env, slots, 1, chunksB);
    Regroup4(Contents(env.parse, pre), [Data(Calls(slots)), Data(Results(ToolRound(slots, env.execute)))],
             RelayB(env.parse, Framer.StreamLines(chunksB)), [Done]);
  }

  /** A session shaped like the one above carries exactly one `[DONE]`: stream A's content, the
      round's data frames, stream B's content and the content after the marker are all data frames. */
  lemma DoneOnce(parse: string -> Option<Chunk>, pre: seq<string>, head: seq<Event>, chunksB: seq<string>, post: seq<string>)
    requires forall k :: 0 <= k < |head| ==> head[k].Data?
    ensures DoneCount(Contents(parse, pre) + head + RelayB(parse, Framer.StreamLines(chunksB)) + [Done]
                      + Contents(parse, post)) == 1
  {
    ContentsAreData(parse, pre);
    ContentsAreData(parse, post);
    OneDone(Contents(parse, pre), head, RelayB(parse, Framer.StreamLines(chunksB)), Contents(parse, post));
  }

  /** The session of `ToolRoundSession` sends exactly one `[DONE]`. */
  lemma ToolRoundSessionDoneOnce(env: Env, chunks: seq<string>, pre: seq<string>, done: string, post: seq<string>, chunksB: seq<string>)
    requires env.upstream(0, InitialRequest(env.messages)) == Body(chunks, Finished)
    requires Framer.StreamLines(chunks) == pre + [done] + post
    requires NoDone(pre) && IsDoneLine(done) && NoDone(post)
    requires var slots := Accumulator.ApplyAll([], Deltas(env.parse, pre));
             && |slots| > 0
             && env.upstream(1, FollowUpFor(env, slots)) == Body(chunksB, Finished)
    ensures DoneCount(StreamBody(env)) == 1
  {
    var slots := Accumulator.ApplyAll([], Deltas(env.parse, pre));
    var head := [Data(Calls(slots)), Data(Results(ToolRound(slots, env.execute)))];
    var frames := Contents(env.parse, pre) + head + RelayB(env.parse, Framer.StreamLines(chunksB)) + [Done]
                  + Contents(env.parse, post);
    assert StreamBody(env) == frames by {
      ToolRoundSession(env, chunks, pre, done, post, chunksB);
    }
    assert DoneCount(frames) == 1 by {
      RoundDoneOnce(env.parse, pre, slots, ToolRound(slots, env.execute), chunksB, post);
    }
  }

  /** `DoneOnce` for a round's two data frames. */
  lemma RoundDoneOnce(parse: string -> Option<Chunk>, pre: seq<string>, calls: CallList, results: ResultList,
                      chunksB: seq<string>, post: seq<string>)
    ensures DoneCount(Contents(parse, pre) + [Data(Calls(calls)), Data(Results(results))]
                      + RelayB(parse, Framer.StreamLines(chunksB)) + [Done] + Contents(parse, post)) == 1
  {
    DoneOnce(parse, pre, [Data(Calls(calls)), Data(Results(results))], chunksB, post);
  }

  /** A round whose follow-up answers sends the calls, the results, stream B's content and `[DONE]`. */
  lemma AnsweredRound(env: Env, slots: CallList, n: nat, chunksB: seq<string>)
    requires |slots| > 0
    requires env.upstream(n, FollowUpFor(env, slots)) == Body(chunksB, Finished)
    ensures OnDone(env, slots, n).events
         == [Data(Calls(slots)), Data(Results(ToolRound(slots, env.execute)))]
            + RelayB(env.parse, Framer.StreamLines(chunksB)) + [Done]
  {
    RoundHead(env, slots, n, chunksB);
    FinishedTail(env.parse, chunksB);
    Regroup([Data(Calls(slots)), Data(Results(ToolRound(slots, env.execute)))],
            RelayB(env.parse, Framer.StreamLines(chunksB)), [Done]);
  }

  lemma RoundHead(env: Env, slots: CallList, n: nat, chunksB: seq<string>)
    requires |slots| > 0
    requires env.upstream(n, FollowUpFor(env, slots)) == Body(chunksB, Finished)
    ensures OnDone(env, slots, n).events
         == [Data(Calls(slots)), Data(Results(ToolRound(slots, env.execute)))]
            + FollowUpTail(env.parse, Body(chunksB, Finished)).events
  {
  }

  /** Regrouping of concatenated frames, named so the session proofs can state it in one step. */
  lemma Regroup(x: seq<Event>, y: seq<Event>, z: seq<Event>)
    ensures x + (y + z) == x + y + z
  {
  }

  /** A follow-up whose body is read to the end yields its content and then `[DONE]`. */
  lemma FinishedTail(parse: string -> Option<Chunk>, chunksB: seq<string>)
    ensures FollowUpTail(parse, Body(chunksB, Finished)).events
         == RelayB(parse, Framer.StreamLines(chunksB)) + [Done]
  {
    var t := FollowUpTail(parse, Body(chunksB, Finished));
    var f := RelayB(parse, Framer.StreamLines(chunksB));
    assert t.events[..|t.events| - 1] == f;
    assert t.events == t.events[..|t.events| - 1] + [t.events[|t.events| - 1]];
  }

  /** Data frames, one `[DONE]`, then more data frames hold exactly one `[DONE]`. */
  lemma OneDone(a: seq<Event>, h: seq<Event>, b: seq<Event>, c: seq<Event>)
    requires forall k :: 0 <= k < |a| ==> a[k].Data?
    requires forall k :: 0 <= k < |h| ==> h[k].Data?
    requires forall k :: 0 <= k < |b| ==> b[k].Data?
    requires forall k :: 0 <= k < |c| ==> c[k].Data?
    ensures DoneCount(a + h + b + [Done] + c) == 1
  {
    NoDoneAmongContent(a);
    NoDoneAmongContent(h);
    NoDoneAmongContent(b);
    NoDoneAmongContent(c);
    DoneCountAppend(a, h);
    DoneCountAppend(a + h, b);
    DoneCountAppend(a + h + b, [Done]);
    DoneCountAppend(a + h + b + [Done], c);
    assert [Done][1..] == [];
  }

  /** The same regrouping for four stretches of frames. */
  lemma Regroup4(w: seq<Event>, x: seq<Event>, y: seq<Event>, z: seq<Event>)
    ensures w + (x + y + z) == w + x + y + z
  {
  }

  lemma ContentsAreData(parse: string -> Option<Chunk>, lines: seq<string>)
    ensures forall k :: 0 <= k < |Contents(parse, lines)| ==> Contents(parse, lines)[k].Data?
    decreases |lines|
  {
    if |lines| > 0 {
      ContentsAreData(parse, lines[1..]);
    }
  }
}

=== FILE: store.dfy ===
/** The conversation store (lib/store.ts): a list of conversations, newest first, and the current
    selection, kept both as an id and as the selected conversation itself. Every action is a pure
    transition here; the ids and clock readings the source draws from `Math.random` and
    `Date.now` are parameters. */
module Store {
  import opened Base
  import opened Types

  /** `ChatStore`'s state: `conversations`, `currentConversationId`, `currentConversation`. */
  datatype ChatState = ChatState(
    conversations: seq<Conversation>,
    currentId: Option<string>,
    current: Option<Conversation>)

  const NewTitle: string := "新对话"

  /** How many characters of the first user message become the title. */
  const TitleLength: nat := 30

  /** The position of the first conversation with the given id. */
  function IndexOf(cs: seq<Conversation>, id: string): (r: Option<nat>)
    ensures r.Some? ==> r.value < |cs| && cs[r.value].id == id
    ensures r.Some? ==> forall j :: 0 <= j < r.value ==> cs[j].id != id
    ensures r.None? ==> forall j :: 0 <= j < |cs| ==> cs[j].id != id
    decreases |cs|
  {
    if |cs| == 0 then None
    else if cs[0].id == id then Some(0)
    else match IndexOf(cs[1..], id)
      case None => None
      case Some(k) => Some(k + 1)
  }

  /** `conversations.find((c) => c.id === id) || null`; an absent id matches nothing. */
  function Find(cs: seq<Conversation>, id: Option<string>): (r: Option<Conversation>)
    ensures r.Some? <==> id.Some? && exists k :: 0 <= k < |cs| && cs[k].id == id.value
    ensures r.Some? ==> exists k :: 0 <= k < |cs| && cs[k] == r.value && cs[k].id == id.value
                                  && forall j :: 0 <= j < k ==> cs[j].id != id.value
  {
    if id.None? then None
    else match IndexOf(cs, id.value)
      case None => None
      case Some(k) => Some(cs[k])
  }

  /** The selection invariant: the current conversation is the listed one with the current id,
      or nothing when no listed conversation has it. */
  ghost predicate Consistent(s: ChatState) {
    s.current == Find(s.conversations, s.currentId)
  }

  ghost predicate DistinctIds(cs: seq<Conversation>) {
    forall i, j :: 0 <= i < j < |cs| ==> cs[i].id != cs[j].id
  }

  ghost predicate SameIds(a: seq<Conversation>, b: seq<Conversation>) {
    |a| == |b| && forall k :: 0 <= k < |a| ==> a[k].id == b[k].id
  }

  lemma {:induction false} IndexOfSameIds(a: seq<Conversation>, b: seq<Conversation>, id: string)
    requires SameIds(a, b)
    ensures IndexOf(a, id) == IndexOf(b, id)
    decreases |a|
  {
    if |a| > 0 {
      IndexOfSameIds(a[1..], b[1..], id);
    }
  }

  lemma IndexOfSameIdsEverywhere(a: seq<Conversation>, b: seq<Conversation>)
    requires SameIds(a, b)
    ensures forall id :: IndexOf(a, id) == IndexOf(b, id)
  {
    forall id ensures IndexOf(a, id) == IndexOf(b, id) {
      IndexOfSameIds(a, b, id);
    }
  }

  /** `createConversation`: a new, empty conversation titled "新对话" goes in front of the others,
      which keep their order, and becomes the current one. */
  function CreateConversation(s: ChatState, id: string, now: int): (r: ChatState)
    ensures |r.conversations| == |s.conversations| + 1 && r.conversations[1..] == s.conversations
    ensures r.conversations[0].id == id && r.conversations[0].title == NewTitle
    ensures r.conversations[0].messages == []
    ensures r.currentId == Some(id) && r.current == Some(r.conversations[0])
    ensures Consistent(r)
    ensures DistinctIds(s.conversations) && Find(s.conversations, Some(id)).None? ==> DistinctIds(r.conversations)
  {
    var c := Conversation(id, NewTitle, [], now, now);
    var r := ChatState([c] + s.conversations, Some(id), Some(c));
    assert r.conversations[1..] == s.conversations;
    r
  }

  /** `conversations.filter((c) => c.id !== id)`. */
  function Without(cs: seq<Conversation>, id: string): (r: seq<Conversation>)
    ensures forall k :: 0 <= k < |r| ==> r[k].id != id && r[k] in cs
    ensures forall k :: 0 <= k < |cs| && cs[k].id != id ==> cs[k] in r
    ensures |r| <= |cs|
    decreases |cs|
  {
    if |cs| == 0 then []
    else if cs[0].id == id then Without(cs[1..], id)
    else [cs[0]] + Without(cs[1..], id)
  }

  /** Filtering respects concatenation, so the survivors keep their relative order. */
  lemma {:induction false} WithoutAppend(a: seq<Conversation>, b: seq<Conversation>, id: string)
    ensures Without(a + b, id) == Without(a, id) + Without(b, id)
    decreases |a|
  {
    if |a| == 0 {
      assert a + b == b;
    } else {
      assert (a + b)[0] == a[0];
      assert (a + b)[1..] == a[1..] + b;
      WithoutAppend(a[1..], b, id);
    }
  }

  /** Removing an id no conversation has changes nothing. */
  lemma {:induction false} WithoutAbsent(cs: seq<Conversation>, id: string)
    requires forall k :: 0 <= k < |cs| ==> cs[k].id != id
    ensures Without(cs, id) == cs
    decreases |cs|
  {
    if |cs| > 0 {
      WithoutAbsent(cs[1..], id);
      assert cs == [cs[0]] + cs[1..];
    }
  }

  lemma WithoutKeepsDistinct(cs: seq<Conversation>, id: string)
    ensures DistinctIds(cs) ==> DistinctIds(Without(cs, id))
    decreases |cs|
  {
    if |cs| > 0 && DistinctIds(cs) {
      WithoutKeepsDistinct(cs[1..], id);
      var rest := Without(cs[1..], id);
      forall k | 0 <= k < |rest| ensures rest[k].id != cs[0].id {
        var j :| 0 <= j < |cs[1..]| && cs[1..][j] == rest[k];
        assert cs[j + 1] == rest[k];
      }
    }
  }

  lemma FindPastHead(cs: seq<Conversation>, id: string)
    requires |cs| > 0 && cs[0].id != id
    ensures Find(cs, Some(id)) == Find(cs[1..], Some(id))
  {
    match IndexOf(cs[1..], id)
    case None =>
    case Some(k) => assert cs[k + 1] == cs[1..][k];
  }

  /** Deleting other conversations does not change which conversation an id selects. */
  lemma {:induction false} FindWithout(cs: seq<Conversation>, id: string, kept: string)
    requires kept != id
    ensures Find(Without(cs, id), Some(kept)) == Find(cs, Some(kept))
    decreases |cs|
  {
    if |cs| > 0 {
      var w := Without(cs, id);
      FindWithout(cs[1..], id, kept);
      if cs[0].id == id {
        FindPastHead(cs, kept);
      } else if cs[0].id != kept {
        assert w[0] == cs[0] && w[1..] == Without(cs[1..], id);
        FindPastHead(cs, kept);
        FindPastHead(w, kept);
      } else {
        assert w[0] == cs[0];
      }
    }
  }

  /** `deleteConversation`: every conversation with the id goes, the rest keep their order. When
      the deleted one was current, the first survivor becomes current (none if there is none or
      its id is the empty string, which `|| null` treats as missing); otherwise the current id
      stays. */
  function DeleteConversation(s: ChatState, id: string): (r: ChatState)
    ensures r.conversations == Without(s.conversations, id)
    ensures s.currentId != Some(id) ==> r.currentId == s.currentId
    ensures s.currentId != Some(id) && Consistent(s) ==> r.current == s.current
    ensures s.currentId == Some(id) && |r.conversations| > 0 && r.conversations[0].id != "" ==>
              r.currentId == Some(r.conversations[0].id) && r.current == Some(r.conversations[0])
    ensures s.currentId == Some(id) && |r.conversations| == 0 ==> r.currentId.None? && r.current.None?
    ensures s.currentId == Some(id) ==>
              r.currentId == if |r.conversations| > 0 && r.conversations[0].id != "" then Some(r.conversations[0].id) else None
    ensures Consistent(r)
    ensures DistinctIds(s.conversations) ==> DistinctIds(r.conversations)
  {
    var rest := Without(s.conversations, id);
    var newId :=
      if s.currentId == Some(id) then
        if |rest| > 0 && rest[0].id != "" then Some(rest[0].id) else None
      else s.currentId;
    WithoutKeepsDistinct(s.conversations, id);
    if s.currentId.Some? && s.currentId != Some(id) then
      FindWithout(s.conversations, id, s.currentId.value);
      ChatState(rest, newId, Find(rest, newId))
    else
      ChatState(rest, newId, Find(rest, newId))
  }

  /** `setCurrentConversation`: the id is taken even when no conversation has it, and the current
      conversation is then none. */
  function SetCurrentConversation(s: ChatState, id: string): (r: ChatState)
    ensures r.conversations == s.conversations && r.currentId == Some(id)
    ensures r.current.Some? <==> exists k :: 0 <= k < |s.conversations| && s.conversations[k].id == id
    ensures r.current.Some? ==> r.current.value in s.conversations && r.current.value.id == id
    ensures Consistent(r)
  {
    ChatState(s.conversations, Some(id), Find(s.conversations, Some(id)))
  }

  /** Whether appending `m` to a conversation holding `messages` retitles it: the first message,
      from the user, with non-empty content. */
  predicate Retitles(messages: seq<Message>, m: Message) {
    |messages| == 0 && m.role == User && m.content != ""
  }

  /** The conversation after `addMessage`. */
  function Appended(c: Conversation, m: Message, now: int): (r: Conversation)
    ensures r.id == c.id && r.messages == c.messages + [m] && r.updatedAt == now
    ensures Retitles(c.messages, m) ==>
              r.title == m.content[..if |m.content| < TitleLength then |m.content| else TitleLength]
    ensures !Retitles(c.messages, m) ==> r.title == c.title
  {
    var title := if Retitles(c.messages, m) then Prefix(m.content, TitleLength) else c.title;
    c.(messages := c.messages + [m], updatedAt := now, title := title)
  }

  /** `addMessage`: the message goes to the end of the conversations with that id; the others are
      untouched. The current conversation is re-read only when it is the one written to. */
  function AddMessage(s: ChatState, conversationId: string, m: Message, now: int): (r: ChatState)
    ensures SameIds(s.conversations, r.conversations)
    ensures forall k :: 0 <= k < |s.conversations| && s.conversations[k].id != conversationId ==>
              r.conversations[k] == s.conversations[k]
    ensures forall k :: 0 <= k < |s.conversations| && s.conversations[k].id == conversationId ==>
              r.conversations[k] == Appended(s.conversations[k], m, now)
    ensures r.currentId == s.currentId
    ensures Consistent(s) ==> Consistent(r)
    ensures DistinctIds(s.conversations) ==> DistinctIds(r.conversations)
  {
    var cs := s.conversations;
    var cs' := seq(|cs|, k requires 0 <= k < |cs| =>
                 if cs[k].id == conversationId then Appended(cs[k], m, now) else cs[k]);
    var current := if s.currentId == Some(conversationId) then Find(cs', Some(conversationId)) else s.current;
    IndexOfSameIdsEverywhere(cs, cs');
    ChatState(cs', s.currentId, current)
  }

  /** `Partial<Message>`: the fields an update sets. */
  datatype Patch = Patch(
    id: Option<string>,
    role: Option<Role>,
    content: Option<string>,
    createdAt: Option<int>,
    toolCalls: Option<CallList>,
    toolCallId: Option<string>)

  /** `{ ...msg, ...updates }`: each field the patch sets replaces the message's. */
  function Merge(m: Message, p: Patch): (r: Message)
    ensures p.content.Some? ==> r.content == p.content.value
    ensures p.content.None? ==> r.content == m.content
    ensures p.toolCalls.Some? ==> r.toolCalls == p.toolCalls
    ensures p.toolCalls.None? ==> r.toolCalls == m.toolCalls
    ensures p.id.Some? ==> r.id == p.id.value
    ensures p.id.None? ==> r.id == m.id
    ensures p.role.Some? ==> r.role == p.role.value
    ensures p.role.None? ==> r.role == m.role
    ensures p.createdAt.Some? ==> r.createdAt == p.createdAt.value
    ensures p.createdAt.None? ==> r.createdAt == m.createdAt
    ensures p.toolCallId.Some? ==> r.toolCallId == p.toolCallId
    ensures p.toolCallId.None? ==> r.toolCallId == m.toolCallId
  {
    Message(
      if p.id.Some? then p.id.value else m.id,
      if p.role.Some? then p.role.value else m.role,
      if p.content.Some? then p.content.value else m.content,
      if p.createdAt.Some? then p.createdAt.value else m.createdAt,
      if p.toolCalls.Some? then p.toolCalls else m.toolCalls,
      if p.toolCallId.Some? then p.toolCallId else m.toolCallId)
  }

  /** The conversation after `updateMessage`: same number of messages in the same order, the
      patch merged into those with the id. */
  function Patched(c: Conversation, messageId: string, p: Patch, now: int): (r: Conversation)
    ensures r.id == c.id && r.title == c.title && r.updatedAt == now
    ensures |r.messages| == |c.messages|
    ensures forall k :: 0 <= k < |c.messages| ==>
              r.messages[k] == if c.messages[k].id == messageId then Merge(c.messages[k], p) else c.messages[k]
  {
    var ms := c.messages;
    c.(messages := seq(|ms|, k requires 0 <= k < |ms| => if ms[k].id == messageId then Merge(ms[k], p) else ms[k]),
       updatedAt := now)
  }

  /** `updateMessage`: only the conversations with the id change, and in them only the messages
      with the message id. */
  function UpdateMessage(s: ChatState, conversationId: string, messageId: string, p: Patch, now: int): (r: ChatState)
    ensures SameIds(s.conversations, r.conversations)
    ensures forall k :: 0 <= k < |s.conversations| && s.conversations[k].id != conversationId ==>
              r.conversations[k] == s.conversations[k]
    ensures forall k :: 0 <= k < |s.conversations| && s.conversations[k].id == conversationId ==>
              r.conversations[k] == Patched(s.conversations[k], messageId, p, now)
    ensures r.currentId == s.currentId
    ensures Consistent(s) ==> Consistent(r)
    ensures DistinctIds(s.conversations) ==> DistinctIds(r.conversations)
  {
    var cs := s.conversations;
    var cs' := seq(|cs|, k requires 0 <= k < |cs| =>
                 if cs[k].id == conversationId then Patched(cs[k], messageId, p, now) else cs[k]);
    var current := if s.currentId == Some(conversationId) then Find(cs', Some(conversationId)) else s.current;
    IndexOfSameIdsEverywhere(cs, cs');
    ChatState(cs', s.currentId, current)
  }

  /** `clearConversations`: nothing listed and nothing selected. */
  function ClearConversations(s: ChatState): (r: ChatState)
    ensures |r.conversations| == 0 && r.currentId.None? && r.current.None?
    ensures Consistent(r)
  {
    ChatState([], None, None)
  }
}

=== FILE: tools.dfy ===
/** The tool collaborator (lib/tools.ts): `executeTool` validates the arguments text and dispatches
    on the tool name, and `getWeather` answers from a fixed table of three cities. */
module Tools {
  import opened Base

  /** A value `JSON.parse` can produce; numbers are kept as integers. */
  datatype Json =
    | JNull
    | JBool(b: bool)
    | JNum(n: int)
    | JStr(s: string)
    | JArr(items: seq<Json>)
    | JObj(fields: map<string, Json>)

  /** The outcome of `JSON.parse(args)`: a value, or the `SyntaxError` it throws, by its text. */
  datatype Parse = Parsed(value: Json) | SyntaxError(text: string)

  /** JavaScript truthiness of a JSON value. */
  predicate Truthy(v: Json) {
    match v
    case JNull => false
    case JBool(b) => b
    case JNum(n) => n != 0
    case JStr(s) => s != ""
    case _ => true
  }

  /** `value.key` for a non-null value: an object's own field; arrays, strings, numbers and
      booleans have no property named "location" or "unit", so they give `undefined`. */
  function Field(value: Json, key: string): Option<Json>
    requires value != JNull
  {
    match value
    case JObj(fields) => if key in fields then Some(fields[key]) else None
    case _ => None
  }

  datatype Unit = Celsius | Fahrenheit

  /** The object `getWeather` resolves to. */
  datatype WeatherResult = WeatherResult(
    location: string,
    temperature: int,
    unit: string,
    condition: string,
    humidity: int,
    windSpeed: int)

  /** What `executeTool` hands back: the weather object or an `{error}` object, before
      `JSON.stringify` turns it into text. */
  datatype ToolReply = Weather(result: WeatherResult) | Failure(error: string)

  const MissingLocation: string := "缺少必需参数: location（城市名称）"

  /** The message V8 puts in the TypeError thrown by reading a property of `null`. */
  const NullReadError: string := "TypeError: Cannot read properties of null (reading 'location')"

  /** `params.unit || "celsius"` compared with `"celsius"`. */
  function SelectUnit(unitField: Option<Json>): (u: Unit)
    ensures unitField.None? ==> u == Celsius
    ensures unitField == Some(JStr("celsius")) ==> u == Celsius
    ensures u == Fahrenheit <==> unitField.Some? && Truthy(unitField.value) && unitField.value != JStr("celsius")
  {
    var unit := if unitField.Some? && Truthy(unitField.value) then unitField.value else JStr("celsius");
    if unit == JStr("celsius") then Celsius else Fahrenheit
  }

  function UnitLabel(u: Unit): string {
    if u == Celsius then "°C" else "°F"
  }

  /** The row for a location the table does not list. */
  function DefaultRow(location: string, u: Unit): WeatherResult {
    WeatherResult(location, if u == Celsius then 18 else 64, UnitLabel(u), "未知", 50, 10)
  }

  /** The table's own rows, keyed by city. */
  function TableRow(location: string, u: Unit): Option<WeatherResult> {
    if location == "北京" then
      Some(WeatherResult("北京", if u == Celsius then 15 else 59, UnitLabel(u), "晴朗", 45, 12))
    else if location == "上海" then
      Some(WeatherResult("上海", if u == Celsius then 20 else 68, UnitLabel(u), "多云", 60, 8))
    else if location == "深圳" then
      Some(WeatherResult("深圳", if u == Celsius then 25 else 77, UnitLabel(u), "阴天", 70, 5))
    else None
  }

  /** `getWeather`, with the table consulted for its own keys only (see the as-written variant
      below). Every answer names the asked location and carries the selected unit's label. */
  function GetWeather(location: string, unitField: Option<Json>): (r: WeatherResult)
    ensures r.location == location
    ensures r.unit == (if SelectUnit(unitField) == Celsius then "°C" else "°F")
    ensures location !in {"北京", "上海", "深圳"} ==> r == DefaultRow(location, SelectUnit(unitField))
    // The three listed cities get their own rows: temperature, condition, humidity, wind speed.
    ensures location == "北京" ==>
              (r.temperature, r.condition, r.humidity, r.windSpeed)
              == (if SelectUnit(unitField) == Celsius then 15 else 59, "晴朗", 45, 12)
    ensures location == "上海" ==>
              (r.temperature, r.condition, r.humidity, r.windSpeed)
              == (if SelectUnit(unitField) == Celsius then 20 else 68, "多云", 60, 8)
    ensures location == "深圳" ==>
              (r.temperature, r.condition, r.humidity, r.windSpeed)
              == (if SelectUnit(unitField) == Celsius then 25 else 77, "阴天", 70, 5)
  {
    var u := SelectUnit(unitField);
    match TableRow(location, u)
    case Some(row) => row
    case None => DefaultRow(location, u)
  }

  /** The table's two scales agree: every Fahrenheit reading is the Celsius one converted and
      rounded down, and nothing but the temperature and its label depends on the unit. */
  lemma ScalesAgree(location: string, unitField: Option<Json>)
    requires SelectUnit(unitField) == Fahrenheit
    ensures var c := GetWeather(location, None);
            var f := GetWeather(location, unitField);
            && f.temperature == c.temperature * 9 / 5 + 32
            && f == c.(temperature := f.temperature, unit := "°F")
  {
  }

  /** The parsed `params`: `{}` for blank arguments, otherwise what `JSON.parse` gives. */
  function Params(args: string, parse: string -> Parse): Parse {
    if Trim(args) == "" then Parsed(JObj(map[])) else parse(args)
  }

  /** `params.location` is a non-empty string: the check at lib/tools.ts:98 lets it through. */
  predicate LocationGiven(params: Json) {
    params.JObj? && "location" in params.fields
    && params.fields["location"].JStr? && params.fields["location"].s != ""
  }

  /** `executeTool(name, args)`. Never fails: every failure, including the exception thrown when the
      arguments parse to `null`, becomes an `{error}` reply. */
  function ExecuteTool(name: string, args: string, parse: string -> Parse): (r: ToolReply)
    // Malformed non-blank arguments are reported before the name is looked at.
    ensures Trim(args) != "" && parse(args).SyntaxError? ==>
              r == Failure("Invalid JSON arguments: " + parse(args).text)
    ensures name != "get_weather" && Params(args, parse).Parsed? ==>
              r == Failure("Unknown tool: " + name)
    // Blank arguments count as `{}`, which has no location.
    ensures name == "get_weather" && IsBlank(args) ==> r == Failure(MissingLocation)
    // Arguments that parse to `null` make the read of `location` throw.
    ensures name == "get_weather" && Params(args, parse) == Parsed(JNull) ==>
              r == Failure("Tool execution failed: " + NullReadError)
    // Any other value whose `location` is missing, empty or not a string is turned away.
    ensures && name == "get_weather" && Params(args, parse).Parsed? && Params(args, parse).value != JNull
            && !LocationGiven(Params(args, parse).value)
            ==> r == Failure(MissingLocation)
    // A weather reply exactly when the location is a non-empty string, and then for that location.
    ensures r.Weather? <==>
              name == "get_weather" && Params(args, parse).Parsed? && LocationGiven(Params(args, parse).value)
    ensures r.Weather? ==> r.result.location == Params(args, parse).value.fields["location"].s
    // The whole `params` object reaches `getWeather`, so its `unit` field picks the scale.
    ensures name == "get_weather" && Params(args, parse).Parsed? && LocationGiven(Params(args, parse).value) ==>
              r == Weather(GetWeather(Params(args, parse).value.fields["location"].s, Field(Params(args, parse).value, "unit")))
  {
    TrimEmptyIffBlank(args);
    match Params(args, parse)
    case SyntaxError(text) => Failure("Invalid JSON arguments: " + text)
    case Parsed(params) => if name == "get_weather" then WeatherCall(params) else Failure("Unknown tool: " + name)
  }

  /** The `get_weather` branch of `executeTool` for parsed arguments. */
  function WeatherCall(params: Json): (r: ToolReply)
    ensures params == JNull ==> r == Failure("Tool execution failed: " + NullReadError)
    ensures params != JNull && !LocationGiven(params) ==> r == Failure(MissingLocation)
    ensures r.Weather? <==> LocationGiven(params)
    ensures r.Weather? ==> r.result.location == params.fields["location"].s
    ensures LocationGiven(params) ==> r == Weather(GetWeather(params.fields["location"].s, Field(params, "unit")))
  {
    if params == JNull then Failure("Tool execution failed: " + NullReadError)
    else
      match Field(params, "location")
      case Some(JStr(location)) =>
        if location == "" then Failure(MissingLocation)
        else Weather(GetWeather(location, Field(params, "unit")))
      case _ => Failure(MissingLocation)
  }

  // ---- The table lookup as written ----

  /** The members every object literal inherits from `Object.prototype`. */
  const PrototypeMembers: set<string> := {
    "__proto__", "constructor", "hasOwnProperty", "isPrototypeOf", "propertyIsEnumerable",
    "toLocaleString", "toString", "valueOf", "__defineGetter__", "__defineSetter__",
    "__lookupGetter__", "__lookupSetter__"}

  /** What `weatherData[params.location] || {...default}` evaluates to. */
  datatype Lookup = Row(row: WeatherResult) | Inherited(member: string)

  /** The lookup as lib/tools.ts:67-76 writes it: `weatherData` is an object literal, so indexing
      it with an inherited member's name finds that member, which is truthy, instead of falling
      back to the default row. */
  function LookupAsWritten(location: string, u: Unit): (r: Lookup)
    ensures r.Inherited? <==> location in PrototypeMembers
    ensures r.Row? ==> r.row.location == location
  {
    match TableRow(location, u)
    case Some(row) => Row(row)
    case None => if location in PrototypeMembers then Inherited(location) else Row(DefaultRow(location, u))
  }

  /** Asking for the weather in "toString" finds `Object.prototype.toString`, a function, so
      `JSON.stringify` yields `undefined` and `executeTool` resolves to no text at all; the
      corrected lookup answers with the default row the fallback promises. */
  lemma PrototypeKeyLookup()
    ensures LookupAsWritten("toString", Celsius) == Inherited("toString")
    ensures GetWeather("toString", None) == WeatherResult("toString", 18, "°C", "未知", 50, 10)
  {
  }

  /** The corrected lookup agrees with the written one on every location that is not an
      inherited member's name. */
  lemma LookupAgreesOffPrototype(location: string, unitField: Option<Json>)
    requires location !in PrototypeMembers
    ensures LookupAsWritten(location, SelectUnit(unitField)) == Row(GetWeather(location, unitField))
  {
  }
}

=== FILE: types.dfy ===
/** The records shared by the relay, the store and the chat view (lib/types.ts). */
module Types {
  import opened Base

  /** `MessageRole`. */
  datatype Role = User | Assistant | System | Tool

  /** `ToolCall`: `{id, type, function: {name, arguments}}`, with the nested function record flattened.
      `arguments` is JSON text that only becomes well-formed once every fragment has arrived. */
  datatype ToolCall = ToolCall(id: string, callType: string, name: string, arguments: string)

  /** A JSON array of tool calls as it travels: an entry is `None` where the JavaScript array has a
      hole (an index no delta ever addressed), which serialises as `null`. */
  type CallList = seq<Option<ToolCall>>

  /** The relay's tool result `{role, tool_call_id, content}`; `content` is the tool's JSON text. */
  datatype ToolResult = ToolResult(role: Role, toolCallId: string, content: string)

  /** The relay's array of results, position for position with its `CallList`. */
  type ResultList = seq<Option<ToolResult>>

  /** `Message`; `toolCalls` and `toolCallId` are the optional fields. */
  datatype Message = Message(
    id: string,
    role: Role,
    content: string,
    createdAt: int,
    toolCalls: Option<CallList>,
    toolCallId: Option<string>)

  /** `Conversation`. */
  datatype Conversation = Conversation(
    id: string,
    title: string,
    messages: seq<Message>,
    createdAt: int,
    updatedAt: int)

  /** A message as sent to the chat-completions endpoint: `{role, content, tool_calls, tool_call_id}`. */
  datatype WireMessage = WireMessage(
    role: Role,
    content: string,
    toolCalls: Option<CallList>,
    toolCallId: Option<string>)
}
